=== FILE: README.md ===
# marginfi-bot account sync, modelled in Dafny

This project models three parts of the marginfi liquidation bot's account-synchronisation layer and proves properties of them.

- **The account fetcher** (`src/comms/rpc_comms_client.rs`):
  - the scan of a group's margin accounts. When the remote node rejects a scan with its "scan aborted: The accumulated scan results exceeded the limit" error, the scan splits into the 256 one-byte extensions of the owner-authority prefix, depth first. The prefix can grow to at most 32 bytes;
  - the per-group loop, with its unscoped fallback when there are no groups;
  - the bootstrap order: groups, then banks, then margin accounts;
  - the batched address lookup, in batches of 100;
  - the server-side filters at offsets 0, 8 and 40;
  - the substring test that recognises the scan-limit error;
  - the hex rendering of a prefix.
- **The snapshot store** (`src/cache/snapshot.rs`):
  - capturing the cache into a version-1 snapshot;
  - persisting it by writing `path.with_extension("tmp")` and renaming that file onto `path`;
  - the version-gated restore.
- **`ServiceManager::start`** (`src/service.rs`), recorded as a trace of events:
  - restore and the auxiliary load, or the full load and the initial persist;
  - the three worker spawns;
  - the supervising loop with its snapshot timer.

Some things are inputs to the model rather than modelled code:

- **Function-valued parameters** stand in for the remote filtered scan (`Scan`), the remote multi-account call (`MultiGet`) and the binary codec (`Codec`).
- **The filesystem** is a map from path to file.
- **Plain values** stand in for the wall clock, the outcome of each write and rename, the loaders' outcomes and the stop flag.

Every fetch returns the filter lists it sent next to its result, in order. That trace lets the contracts state which queries were issued and in what order. Likewise, `start` returns its events in order.

Modules:

| module | file | models |
|---|---|---|
| `Common` | common.dfy | bytes, 32-byte keys, `Result`. `Gather`/`FirstErr`/`IssuedCount` give the meaning of a "stop at the first error, else concatenate" loop |
| `Text` | text.dfy | substring search; hex rendering and its inverse `ParseHex` |
| `Filters` | filters.dfy | offsets, account kinds, filter lists, scan-limit classification |
| `AccountFetch` | account_fetch.dfy | prefix-partition scan, per-group loop, bootstrap |
| `BatchLookup` | batch_lookup.dfy | `get_accounts` |
| `SnapshotStore` | snapshot_store.dfy | capture, persist, restore, `Path::with_extension` |
| `Service` | service.dfy | `ServiceManager::start` and its main loop |

## Model

| member | source | states |
|---|---|---|
| Common.GatherMeaning | src/comms/rpc_comms_client.rs:211-223 | A stop-at-first-error loop fails exactly when some step fails, and then with the first failing step's error. Otherwise it returns every step's accounts concatenated in step order. |
| Text.ContainsMeaning | src/comms/rpc_comms_client.rs:229-232 | The left-to-right substring scan holds exactly when the pattern occurs at some position of the text. |
| Text.HexBytesAt | src/comms/rpc_comms_client.rs:258-262 | Byte i is rendered at positions 2i and 2i+1, high nibble first, as upper-case hex digits. |
| Text.HexRoundTrip | src/comms/rpc_comms_client.rs:258-262 | Parsing the hex rendering gives back exactly the original bytes. |
| Text.FormatPrefix | src/comms/rpc_comms_client.rs:254-264 | The empty prefix renders as "<full>". Any other prefix renders as two characters per byte, and parsing them back gives the prefix. |
| Text.FormatPrefixInjective | src/comms/rpc_comms_client.rs:254-264 | Two prefixes with the same rendering are equal, so the empty prefix never looks like a real one. |
| Filters.ScopedFiltersShape | src/comms/rpc_comms_client.rs:173-183 | A scoped scan always has the margin-account size filter, the discriminator at offset 0 and the group at offset 8. An authority filter at offset 40 is present iff the prefix is non-empty, and the prefix can be read back from it. |
| Filters.ScopedFiltersInjective | src/comms/rpc_comms_client.rs:173-183 | Different groups or prefixes give different filter lists. |
| Filters.ScanLimitClassification | src/comms/rpc_comms_client.rs:229-232 | An error counts as a scan-limit rejection iff the fixed message occurs somewhere in its text. |
| Filters.ScanLimitInContext | src/comms/rpc_comms_client.rs:229-232 | The message is recognised whatever text surrounds it. |
| AccountFetch.ForPrefix | src/comms/rpc_comms_client.rs:167-227 | The first query is the scoped scan of the prefix. Every query is a scoped scan of the same group whose prefix extends the given one and is at most 32 bytes long (or the given length, if longer). Any error returned is one that the scan gave to an issued query. |
| AccountFetch.Extensions | src/comms/rpc_comms_client.rs:211-223 | The loop over extensions starts with the scan of the prefix extended by the current byte. All its queries stay within the prefix's partition and within 32 bytes. Any error comes from an issued query. |
| AccountFetch.ExtensionsMeaning | src/comms/rpc_comms_client.rs:211-223 | The loop returns the first sub-fetch error, or else all sub-results concatenated in byte order. Its trace is the sub-fetches' traces in ascending byte order, up to and including the first failing one and none after it. |
| AccountFetch.ScanSuccessReturned | src/comms/rpc_comms_client.rs:195-200 | A successful scan is returned as is, with that single query. |
| AccountFetch.OtherErrorShortCircuits | src/comms/rpc_comms_client.rs:225 | An error that is not the scan-limit rejection is returned unchanged, and nothing else is queried. |
| AccountFetch.FullLengthRejectionFails | src/comms/rpc_comms_client.rs:207-209 | A scan-limit rejection of a 32-byte prefix is returned, and nothing finer is queried. |
| AccountFetch.LimitSplits | src/comms/rpc_comms_client.rs:201-224 | A rejection of a shorter prefix is answered by the 256 one-byte extensions, in ascending order. The result is the first sub-fetch error or the concatenation in byte order. The trace is the rejected query followed by the sub-traces. |
| AccountFetch.PartitionCompletes | src/comms/rpc_comms_client.rs:167-227 | If the scan fails only by rejecting prefixes shorter than a key, the partition search always succeeds. |
| AccountFetch.EachGroupMeaning | src/comms/rpc_comms_client.rs:157-164 | The per-group loop returns the first group's error, or else every group's accounts concatenated in group order. |
| AccountFetch.EachGroupTrace | src/comms/rpc_comms_client.rs:157-161 | The groups are fetched in order, up to and including the first group whose fetch fails and none after it. The loop's queries are exactly those fetches' queries, one after the other. |
| AccountFetch.ByGroupMeaning | src/comms/rpc_comms_client.rs:145-165 | With no group, this is one unscoped scan with the kind filters. Otherwise it is the per-group loop from the empty prefix. |
| AccountFetch.BootstrapOrder | src/comms/rpc_comms_client.rs:46-72 | Groups are queried first and banks second. A group failure stops before the bank scan, and a bank failure before any margin-account scan. After both succeed, the queries are the group and bank scans followed by exactly those of the margin-account stage, and a failure of that stage is returned unchanged. Success means all three stages succeeded, using the fetched group keys in fetched order, and yields groups ++ banks ++ margin accounts. |
| AccountFetch.BootstrapWithoutGroups | src/comms/rpc_comms_client.rs:150-155 | With no groups, the third query is the unscoped margin-account scan. |
| BatchLookup.PresentAnswers | src/comms/rpc_comms_client.rs:79-83 | Pairing a batch with answers given address by address keeps exactly the addresses that have an account, with their accounts, in batch order. Addresses without an account are dropped. |
| BatchLookup.GetAccounts | src/comms/rpc_comms_client.rs:74-87 | Each batch holds 1 to 100 addresses. Every batch but the last holds exactly 100 and was answered. On success the batches are the addresses, in order. On failure they are a prefix of the addresses. The failed last batch holds the next 100 addresses, or all that remained, and failed with the returned error. |
| BatchLookup.LookupDropsMissing | src/comms/rpc_comms_client.rs:74-87 | When every address is answered on its own, the lookup returns exactly the addresses that have an account, with their accounts, in input order. Batching changes nothing. |
| BatchLookup.FirstBatchFailure | src/comms/rpc_comms_client.rs:77-78 | A failed first batch fails the lookup with its error, and no other batch is sent. |
| SnapshotStore.Capture | src/cache/snapshot.rs:42-53 | Capture succeeds iff no cache lock fails. It then holds version 1, the capture time, and the cache's clock and both collections. Otherwise it fails with the lock error. |
| SnapshotStore.TmpPathShape | src/cache/snapshot.rs:82 | The temporary path begins with the target's directory. It equals the target iff the target names no file, or the target ends in its file name (no trailing separator or `.` component) and that name is already `<stem>.tmp`. |
| SnapshotStore.TmpPathReplacesExtension | src/cache/snapshot.rs:82 | "cache.bin" is written through "cache.tmp". |
| SnapshotStore.TmpPathOfTmpTarget | src/cache/snapshot.rs:82 | "state/cache.tmp" is its own temporary file. |
| SnapshotStore.TmpPathSkipsCurrentDir | src/cache/snapshot.rs:82 | A trailing `.` component is ignored, as `Path` ignores it: "foo.txt/." is written through "foo.tmp". |
| SnapshotStore.Rename | src/cache/snapshot.rs:85-91 | After the rename, the target holds the source's file, and the source is gone unless it is the target. No other path changes. |
| SnapshotStore.PersistVia | src/cache/snapshot.rs:79-92 | A capture or encode failure writes nothing, and so does a write that cannot create the temporary file. Success needs a completed write and rename, and leaves the encoded snapshot at the target. With a distinct temporary path, the target holds the old file or the complete new one, whatever the outcome. Only the target and the temporary path change. |
| SnapshotStore.Persist | src/cache/snapshot.rs:79-93 | The same through `with_extension("tmp")`: the target is atomically replaced whenever that temporary path differs from the target. |
| SnapshotStore.InterruptedWriteKeepsTarget | src/cache/snapshot.rs:83-84 | When the temporary path differs from the target, a failed temporary write fails persist and leaves the target as it was. |
| SnapshotStore.TmpCollisionTruncates | src/cache/snapshot.rs:82-84 | Whenever the target is its own temporary path, a write that creates the file and is then cut short fails persist and leaves only the first bytes of the new snapshot at the target. |
| SnapshotStore.TmpCollisionTruncatesTarget | src/cache/snapshot.rs:82-84 | For the target "cache.tmp", an interrupted write leaves a truncated snapshot at the target. |
| SnapshotStore.TmpPathSameDirectory | src/cache/snapshot.rs:82 | When the target names a file, the temporary file has exactly the target's directory. |
| SnapshotStore.SafeTmpPath | src/cache/snapshot.rs:82 | The temporary path is never the target. It is the source's choice whenever that choice differs from the target, and it begins with the target's directory. |
| SnapshotStore.PersistSafe | src/cache/snapshot.rs:79-92 | The target is atomically replaced on every input. The result equals the source's persist whenever its temporary path differs from the target. |
| SnapshotStore.PersistSucceeds | src/cache/snapshot.rs:79-92 | A healthy cache whose snapshot encodes is persisted when the write and the rename complete. |
| SnapshotStore.ReplaceAll | src/cache/snapshot.rs:71-76 | Replacing succeeds iff no lock fails. It then reports "restored", and the cache holds exactly the snapshot's clock and collections. |
| SnapshotStore.Restore | src/cache/snapshot.rs:56-77 | No file gives "not restored". A read or decode failure gives its error with the cache untouched. Another version gives "not restored" with the cache untouched. "restored" holds iff the file decodes to version 1 and no lock fails, and the cache then holds exactly the snapshot. |
| SnapshotStore.PersistThenRestore | src/cache/snapshot.rs:56-92 | With a round-tripping codec, restoring right after a successful persist into any healthy cache (as a restarted process would) reports "restored" and gives back exactly the persisted clock and collections. |
| SnapshotStore.RestoreIdempotent | src/cache/snapshot.rs:71-76 | Restoring the same file again leaves the cache as the first restore left it. |
| Service.Startup | src/service.rs:80-135 | `start` ends with the outcome of the loader it ran. A restored snapshot leads to the auxiliary load and no full load. Otherwise exactly one full load runs, plus the initial persist after a successful load. A failure spawns nothing. A success ends with the three spawns, and every spawn follows the cache being filled. The trace is exact: the restore attempt and one loader event, the initial persist exactly when no snapshot was restored and the full load succeeded, then the three spawns on success and nothing else. |
| Service.Pass | src/service.rs:141-154 | A pass persists exactly when the timer is due. It then logs stats and sleeps once, and never signals the stop. |
| Service.MainLoop | src/service.rs:140-155 | The loop returns iff some pass sees the stop flag. It then ends with `LoopStopped`, which appears nowhere else. It produces only loop events and sleeps once per pass before the stop. |
| Service.LoopPass | src/service.rs:141-154 | Persist is attempted iff the elapsed time reaches the interval. After an attempt the timer restarts at the clock read after it, whether or not it failed. |
| Service.OutcomesDoNotSteer | src/service.rs:141-154 | Persist and stats failures never change what the loop does. With the same stop flags and clock readings, the same passes run and persist is attempted in the same passes. |
| Service.Start | src/service.rs:80-159 | `start` fails iff its loader fails, and then with exactly the startup events. After a successful startup the events are the startup events followed by exactly those of the supervising loop, so every loop rule holds of `start`. It returns normally iff startup succeeded and the stop flag was seen. Every spawn follows the cache being filled. |
| Service.RestoredSkipsBootstrap | src/service.rs:84-89 | After a restored snapshot, the auxiliary load runs and the full load never does. |
| Service.NotRestoredBootstraps | src/service.rs:90-103 | "Not restored" or a restore error leads to exactly one full load. `start` fails iff that load fails, with its error, so a restore error is never propagated. |
| Service.InitialPersistTolerated | src/service.rs:101-111 | After a successful full load, the initial persist is attempted. Its failure does not stop the three spawns. |
| Service.InitialPersistOnlyAfterFullLoad | src/service.rs:84-111 | Over the whole run, an initial persist is recorded iff no snapshot was restored and the full load succeeded: never after a restore, never after a failed load, never by the loop. |
| Service.LoaderFailureStopsBeforeSpawn | src/service.rs:84-111 | A failed loader makes `start` fail with that loader's error, and no worker is spawned. |

## Left out

- The RPC transport, `RpcCommsClient::new`, the encoding and commitment settings, and `get_account` are not modelled. The remote scan and multi-account call are parameters. The error text the scan returns already includes the fetcher's "Failed to get … accounts" context, since only its substring is examined.
- The program id is bound into the scan parameter, not passed along.
- Account-type layouts: `size_of::<…>()` and the Anchor discriminators are opaque fields of `Layout`.
- Logging, `summarize_filters` and `memcmp_byte_len` are debug output only. The account-kind name that `MarginfiProgramAccountType::as_str` puts into the error text (src/comms/rpc_comms_client.rs:126-133) is part of the string the `Scan` parameter returns, since the fetcher only searches that string. `RpcFilterType::TokenAccountState` is never built by the fetcher.
- bincode: the codec is a parameter, and its round trip is a hypothesis of the lemmas that need it.
- Real `fs` calls: the filesystem is a map from path to file. A file's readability and the outcome of each write and rename are inputs.
- `SystemTime`: the capture time is an input, clamped at 0 like `unwrap_or_default`.
- The cache's locks and concurrent access: the cache is a plain value of three cells, each of which may be poisoned. Its collections are the entry lists they produce and accept. Restoring a collection replaces it wholesale. The cache's internal merge rules are not part of this model.
- Paths are compared as text: the filesystem map is keyed by the path string. Two spellings of one file (`a/./b`, `a//b`) are different keys. `WithExtension` follows `Path` on Unix for trailing separators and trailing `.` components, and keeps the rest of the text as written. Windows prefixes and separators are not modelled.
- Threads, `panic!` in workers, `thread::sleep`, the `AtomicBool` stop flag and the channel are not modelled. Spawns and sleeps are trace events, and the stop flag is read once per pass from the input.
- `Instant`: the clock readings are inputs, one when the timer is checked and one right after a persist.
- `log_stats`: only its success or failure is modelled.
- `fetch_clock`: not modelled. It is called only by `ServiceManager::new` (src/service.rs:44), which is outside `start`.
- `ServiceManager::new` is wiring of external collaborators and is not modelled.
- Integer widths: `u64` slots and seconds and `u32` versions are unbounded naturals. None of the modelled logic does arithmetic on them beyond comparisons.

## Findings

| source | as written | input that shows it | evidently intended | confidence | as-written member | corrected member |
|---|---|---|---|---|---|---|
| src/cache/snapshot.rs:82-84 | The temporary file is `path.with_extension("tmp")`, which is `path` itself when the file name is already `<stem>.tmp`. `fs::write` then truncates and rewrites the live snapshot in place, and the rename is a no-op. | Snapshot path `cache.tmp` holding a complete snapshot, with the temporary file created and the write then interrupted after 1 byte: the file at `cache.tmp` is left holding 1 byte of the new snapshot. | The target is only ever replaced whole by a rename from a distinct temporary file, so readers see the old or the new snapshot. | not executed | SnapshotStore.Persist, SnapshotStore.TmpCollisionTruncates, SnapshotStore.TmpCollisionTruncatesTarget | SnapshotStore.PersistSafe, SnapshotStore.SafeTmpPath |

=== FILE: account_fetch.dfy ===
/** The account fetcher of src/comms/rpc_comms_client.rs: the adaptive
    prefix-partition scan of a group's margin accounts, the per-group fan-out,
    and the bootstrap ordering groups, banks, margin accounts.

    The remote filtered scan is a parameter: a function from the filter list
    to the accounts found or the error text. It stands for
    `get_program_accounts_with_filters` bound to the program id, so the error
    text it returns is already the one the fetcher classifies. Every fetch
    returns, next to its result, the exact filter lists it sent, in order. */
module AccountFetch {
  import opened Common
  import opened Filters

  /** A remote account as returned by the ledger. */
  datatype Account = Account(lamports: nat, data: seq<Byte>, owner: Pubkey, executable: bool, rentEpoch: nat)

  type Keyed = (Pubkey, Account)

  /** The remote filtered program-account scan. */
  type Scan = seq<Filter> -> Result<seq<Keyed>>

  /** What a fetch returned, and the filter lists it sent to the scan. */
  datatype Fetched = Fetched(result: Result<seq<Keyed>>, queries: seq<seq<Filter>>)

  /** The prefix with one more byte appended. */
  function Extend(prefix: seq<Byte>, b: int): seq<Byte>
    requires 0 <= b < 256
  {
    prefix + [b as Byte]
  }

  /** Every query in `qs` is a scoped scan of `group` whose authority prefix
      extends `prefix` and is at most `bound` bytes long. */
  predicate WithinPartition(layout: Layout, group: Pubkey, prefix: seq<Byte>, bound: nat, qs: seq<seq<Filter>>)
  {
    forall i :: 0 <= i < |qs| ==>
      && IsScoped(layout, group, qs[i])
      && prefix <= AuthorityPrefix(qs[i])
      && |AuthorityPrefix(qs[i])| <= bound
  }

  function Max(a: nat, b: nat): nat { if a < b then b else a }

  lemma WithinAppend(layout: Layout, group: Pubkey, prefix: seq<Byte>, bound: nat, a: seq<seq<Filter>>, b: seq<seq<Filter>>)
    requires WithinPartition(layout, group, prefix, bound, a)
    requires WithinPartition(layout, group, prefix, bound, b)
    ensures WithinPartition(layout, group, prefix, bound, a + b)
  {
    forall i | 0 <= i < |a + b|
      ensures IsScoped(layout, group, (a + b)[i]) && prefix <= AuthorityPrefix((a + b)[i])
      ensures |AuthorityPrefix((a + b)[i])| <= bound
    {
      if i < |a| {
        assert (a + b)[i] == a[i];
      } else {
        assert (a + b)[i] == b[i - |a|];
      }
    }
  }

  lemma WithinExtension(layout: Layout, group: Pubkey, prefix: seq<Byte>, b: int, qs: seq<seq<Filter>>)
    requires 0 <= b < 256
    requires WithinPartition(layout, group, Extend(prefix, b), PUBKEY_BYTES, qs)
    ensures WithinPartition(layout, group, prefix, PUBKEY_BYTES, qs)
  {
    forall i | 0 <= i < |qs| ensures prefix <= AuthorityPrefix(qs[i]) {
      assert prefix <= Extend(prefix, b);
    }
  }

  lemma WithinFirst(layout: Layout, group: Pubkey, prefix: seq<Byte>)
    ensures WithinPartition(layout, group, prefix, Max(|prefix|, PUBKEY_BYTES), [ScopedFilters(layout, group, prefix)])
  {
    ScopedFiltersShape(layout, group, prefix);
  }

  /** `fetch_marginfi_accounts_for_prefix`: scan the group's margin accounts
      whose authority starts with `prefix`. A scan-limit rejection of a prefix
      shorter than a key is answered by scanning the 256 one-byte extensions
      in ascending order, depth first; any other error, or a rejection at full
      key length, is returned as it is. */
  function ForPrefix(scan: Scan, layout: Layout, group: Pubkey, prefix: seq<Byte>): (f: Fetched)
    ensures |f.queries| >= 1 && f.queries[0] == ScopedFilters(layout, group, prefix)
    ensures WithinPartition(layout, group, prefix, Max(|prefix|, PUBKEY_BYTES), f.queries)
    ensures f.result.Err? ==> exists i :: 0 <= i < |f.queries| && scan(f.queries[i]) == Err(f.result.error)
    decreases PUBKEY_BYTES - |prefix|, 257
  {
    var filters := ScopedFilters(layout, group, prefix);
    WithinFirst(layout, group, prefix);
    match scan(filters)
    case Ok(accounts) => Fetched(Ok(accounts), [filters])
    case Err(e) =>
      if !IsScanLimitError(e) || |prefix| >= PUBKEY_BYTES then
        Fetched(Err(e), [filters])
      else
        var split := Extensions(scan, layout, group, prefix, 0);
        var f := Fetched(split.result, [filters] + split.queries);
        WithinAppend(layout, group, prefix, PUBKEY_BYTES, [filters], split.queries);
        assert f.result.Err? ==> exists i :: 0 <= i < |f.queries| && scan(f.queries[i]) == Err(f.result.error) by {
          if f.result.Err? {
            var i :| 0 <= i < |split.queries| && scan(split.queries[i]) == Err(split.result.error);
            assert f.queries[i + 1] == split.queries[i];
          }
        }
        f
  }

  /** The loop over the one-byte extensions `next`, `next + 1`, ..., 255 of
      `prefix`: sub-results are appended in byte order, and the first failing
      sub-fetch ends the loop with its error. */
  function Extensions(scan: Scan, layout: Layout, group: Pubkey, prefix: seq<Byte>, next: nat): (f: Fetched)
    requires |prefix| < PUBKEY_BYTES && next <= 256
    ensures next < 256 ==> |f.queries| >= 1 && f.queries[0] == ScopedFilters(layout, group, Extend(prefix, next))
    ensures WithinPartition(layout, group, prefix, PUBKEY_BYTES, f.queries)
    ensures f.result.Err? ==> exists i :: 0 <= i < |f.queries| && scan(f.queries[i]) == Err(f.result.error)
    decreases PUBKEY_BYTES - |prefix|, 256 - next
  {
    if next == 256 then Fetched(Ok([]), [])
    else
      var child := ForPrefix(scan, layout, group, Extend(prefix, next));
      if child.result.Err? then
        WithinExtension(layout, group, prefix, next, child.queries);
        child
      else
        var rest := Extensions(scan, layout, group, prefix, next + 1);
        var result := if rest.result.Ok? then Ok(child.result.value + rest.result.value) else rest.result;
        var f := Fetched(result, child.queries + rest.queries);
        WithinExtension(layout, group, prefix, next, child.queries);
        WithinAppend(layout, group, prefix, PUBKEY_BYTES, child.queries, rest.queries);
        assert f.result.Err? ==> exists i :: 0 <= i < |f.queries| && scan(f.queries[i]) == Err(f.result.error) by {
          if f.result.Err? {
            var i :| 0 <= i < |rest.queries| && scan(rest.queries[i]) == Err(rest.result.error);
            assert f.queries[|child.queries| + i] == rest.queries[i];
          }
        }
        f
  }

  /** Result of the sub-fetch of the one-byte extension `b`. */
  function Child(scan: Scan, layout: Layout, group: Pubkey, prefix: seq<Byte>, b: int): Fetched
    requires 0 <= b < 256
  {
    ForPrefix(scan, layout, group, Extend(prefix, b))
  }

  /** The sub-results of the extensions `next` .. 255, in byte order. */
  function ChildResults(scan: Scan, layout: Layout, group: Pubkey, prefix: seq<Byte>, next: nat): (rs: seq<Result<seq<Keyed>>>)
    requires next <= 256
    ensures |rs| == 256 - next
    decreases 256 - next
  {
    if next == 256 then [] else [Child(scan, layout, group, prefix, next).result] + ChildResults(scan, layout, group, prefix, next + 1)
  }

  /** The traces of the extensions `next` .. `next + count - 1`, in byte order. */
  function ChildQueries(scan: Scan, layout: Layout, group: Pubkey, prefix: seq<Byte>, next: nat, count: nat): seq<seq<seq<Filter>>>
    requires next + count <= 256
    decreases count
  {
    if count == 0 then [] else [Child(scan, layout, group, prefix, next).queries] + ChildQueries(scan, layout, group, prefix, next + 1, count - 1)
  }

  /** The extension loop returns exactly the first error among the sub-results
      or their concatenation, and it issues the sub-fetches of the extensions
      in ascending byte order, up to and including the first failing one and
      none after it. */
  lemma {:induction false} ExtensionsMeaning(scan: Scan, layout: Layout, group: Pubkey, prefix: seq<Byte>, next: nat)
    requires |prefix| < PUBKEY_BYTES && next <= 256
    ensures Extensions(scan, layout, group, prefix, next).result == Gather(ChildResults(scan, layout, group, prefix, next))
    ensures Extensions(scan, layout, group, prefix, next).queries
         == Flatten(ChildQueries(scan, layout, group, prefix, next, IssuedCount(ChildResults(scan, layout, group, prefix, next))))
    decreases 256 - next
  {
    if next < 256 {
      if Child(scan, layout, group, prefix, next).result.Err? {
        FailedChildEndsLoop(scan, layout, group, prefix, next);
      } else {
        ExtensionsMeaning(scan, layout, group, prefix, next + 1);
        GoodChildContinues(scan, layout, group, prefix, next);
      }
    }
  }

  /** The loop turn whose sub-fetch fails: it is the last one. */
  lemma FailedChildEndsLoop(scan: Scan, layout: Layout, group: Pubkey, prefix: seq<Byte>, next: nat)
    requires |prefix| < PUBKEY_BYTES && next < 256
    requires Child(scan, layout, group, prefix, next).result.Err?
    ensures Extensions(scan, layout, group, prefix, next).result == Gather(ChildResults(scan, layout, group, prefix, next))
    ensures Extensions(scan, layout, group, prefix, next).queries
         == Flatten(ChildQueries(scan, layout, group, prefix, next, IssuedCount(ChildResults(scan, layout, group, prefix, next))))
  {
    var rs := ChildResults(scan, layout, group, prefix, next);
    var child := Child(scan, layout, group, prefix, next);
    assert rs[0] == child.result;
    ExtensionsStep(scan, layout, group, prefix, next);
    GatherStep(rs);
    IssuedCountStep(rs);
    assert ChildQueries(scan, layout, group, prefix, next, 1) == [child.queries];
    assert Flatten([child.queries]) == child.queries + Flatten([]);
  }

  /** The loop turn whose sub-fetch succeeds: its result and trace are put
      in front of those of the remaining turns. */
  lemma GoodChildContinues(scan: Scan, layout: Layout, group: Pubkey, prefix: seq<Byte>, next: nat)
    requires |prefix| < PUBKEY_BYTES && next < 256
    requires Child(scan, layout, group, prefix, next).result.Ok?
    requires Extensions(scan, layout, group, prefix, next + 1).result == Gather(ChildResults(scan, layout, group, prefix, next + 1))
    requires Extensions(scan, layout, group, prefix, next + 1).queries
         == Flatten(ChildQueries(scan, layout, group, prefix, next + 1, IssuedCount(ChildResults(scan, layout, group, prefix, next + 1))))
    ensures Extensions(scan, layout, group, prefix, next).result == Gather(ChildResults(scan, layout, group, prefix, next))
    ensures Extensions(scan, layout, group, prefix, next).queries
         == Flatten(ChildQueries(scan, layout, group, prefix, next, IssuedCount(ChildResults(scan, layout, group, prefix, next))))
  {
    var rs := ChildResults(scan, layout, group, prefix, next);
    var child := Child(scan, layout, group, prefix, next);
    assert rs == [child.result] + ChildResults(scan, layout, group, prefix, next + 1);
    ExtensionsStep(scan, layout, group, prefix, next);
    GoodChildResult(child.result, ChildResults(scan, layout, group, prefix, next + 1));
    GoodChildQueries(scan, layout, group, prefix, next, IssuedCount(ChildResults(scan, layout, group, prefix, next + 1)));
  }

  lemma GoodChildResult(r: Result<seq<Keyed>>, rs: seq<Result<seq<Keyed>>>)
    requires r.Ok?
    ensures Gather([r] + rs) == (if Gather(rs).Ok? then Ok(r.value + Gather(rs).value) else Gather(rs))
    ensures IssuedCount([r] + rs) == 1 + IssuedCount(rs)
  {
    assert ([r] + rs)[1..] == rs;
    GatherStep([r] + rs);
    IssuedCountStep([r] + rs);
  }

  lemma GoodChildQueries(scan: Scan, layout: Layout, group: Pubkey, prefix: seq<Byte>, next: nat, k: nat)
    requires next < 256 && next + 1 + k <= 256
    ensures Flatten(ChildQueries(scan, layout, group, prefix, next, 1 + k))
         == Child(scan, layout, group, prefix, next).queries + Flatten(ChildQueries(scan, layout, group, prefix, next + 1, k))
  {
    FlattenCons(Child(scan, layout, group, prefix, next).queries, ChildQueries(scan, layout, group, prefix, next + 1, k));
  }

  /** One turn of the extension loop. */
  lemma ExtensionsStep(scan: Scan, layout: Layout, group: Pubkey, prefix: seq<Byte>, next: nat)
    requires |prefix| < PUBKEY_BYTES && next < 256
    ensures var child := Child(scan, layout, group, prefix, next);
      var f := Extensions(scan, layout, group, prefix, next);
      if child.result.Err? then f == child
      else
        var rest := Extensions(scan, layout, group, prefix, next + 1);
        && f.queries == child.queries + rest.queries
        && f.result == (if rest.result.Ok? then Ok(child.result.value + rest.result.value) else rest.result)
  {
  }

  /** A successful scan is returned as it is, with no sub-prefix queried. */
  lemma ScanSuccessReturned(scan: Scan, layout: Layout, group: Pubkey, prefix: seq<Byte>)
    requires scan(ScopedFilters(layout, group, prefix)).Ok?
    ensures ForPrefix(scan, layout, group, prefix)
         == Fetched(scan(ScopedFilters(layout, group, prefix)), [ScopedFilters(layout, group, prefix)])
  {
  }

  /** An error other than the scan-limit rejection is returned unchanged and
      nothing else is queried. */
  lemma OtherErrorShortCircuits(scan: Scan, layout: Layout, group: Pubkey, prefix: seq<Byte>)
    requires scan(ScopedFilters(layout, group, prefix)).Err?
    requires !IsScanLimitError(scan(ScopedFilters(layout, group, prefix)).error)
    ensures ForPrefix(scan, layout, group, prefix)
         == Fetched(scan(ScopedFilters(layout, group, prefix)), [ScopedFilters(layout, group, prefix)])
  {
  }

  /** A scan-limit rejection at full key length is the failure floor: it is
      returned, with no finer query. */
  lemma FullLengthRejectionFails(scan: Scan, layout: Layout, group: Pubkey, prefix: seq<Byte>)
    requires |prefix| >= PUBKEY_BYTES
    requires scan(ScopedFilters(layout, group, prefix)).Err?
    ensures ForPrefix(scan, layout, group, prefix)
         == Fetched(scan(ScopedFilters(layout, group, prefix)), [ScopedFilters(layout, group, prefix)])
  {
  }

  /** A scan-limit rejection of a shorter prefix is answered by the 256
      one-byte extensions, fetched in ascending order: the result is the first
      sub-fetch error or the concatenation of all sub-results in byte order,
      and the trace is the rejected query followed by the traces of the
      sub-fetches actually run, in byte order. */
  lemma LimitSplits(scan: Scan, layout: Layout, group: Pubkey, prefix: seq<Byte>)
    requires |prefix| < PUBKEY_BYTES
    requires scan(ScopedFilters(layout, group, prefix)).Err?
    requires IsScanLimitError(scan(ScopedFilters(layout, group, prefix)).error)
    ensures ForPrefix(scan, layout, group, prefix).result == Gather(ChildResults(scan, layout, group, prefix, 0))
    ensures ForPrefix(scan, layout, group, prefix).queries
         == [ScopedFilters(layout, group, prefix)]
            + Flatten(ChildQueries(scan, layout, group, prefix, 0, IssuedCount(ChildResults(scan, layout, group, prefix, 0))))
  {
    ExtensionsMeaning(scan, layout, group, prefix, 0);
  }

  /** A scan that never fails except by the scan-limit rejection of prefixes
      shorter than a key: the partition search always completes. */
  ghost predicate OnlyRejectsShortPrefixes(scan: Scan, layout: Layout, group: Pubkey)
  {
    forall p: seq<Byte> {:trigger ScopedFilters(layout, group, p)} ::
      scan(ScopedFilters(layout, group, p)).Err? ==>
        |p| < PUBKEY_BYTES && IsScanLimitError(scan(ScopedFilters(layout, group, p)).error)
  }

  lemma {:induction false} PartitionCompletes(scan: Scan, layout: Layout, group: Pubkey, prefix: seq<Byte>)
    requires OnlyRejectsShortPrefixes(scan, layout, group)
    ensures ForPrefix(scan, layout, group, prefix).result.Ok?
    decreases PUBKEY_BYTES - |prefix|, 257
  {
    if scan(ScopedFilters(layout, group, prefix)).Err? {
      ExtensionsComplete(scan, layout, group, prefix, 0);
    }
  }

  lemma {:induction false} ExtensionsComplete(scan: Scan, layout: Layout, group: Pubkey, prefix: seq<Byte>, next: nat)
    requires OnlyRejectsShortPrefixes(scan, layout, group)
    requires |prefix| < PUBKEY_BYTES && next <= 256
    ensures Extensions(scan, layout, group, prefix, next).result.Ok?
    decreases PUBKEY_BYTES - |prefix|, 256 - next
  {
    if next < 256 {
      PartitionCompletes(scan, layout, group, Extend(prefix, next));
      ExtensionsComplete(scan, layout, group, prefix, next + 1);
      ExtensionsStep(scan, layout, group, prefix, next);
    }
  }

  /** The keys of fetched accounts, in fetched order. */
  function Keys(accounts: seq<Keyed>): (ks: seq<Pubkey>)
    ensures |ks| == |accounts|
    ensures forall i :: 0 <= i < |ks| ==> ks[i] == accounts[i].0
  {
    seq(|accounts|, i requires 0 <= i < |accounts| => accounts[i].0)
  }

  /** The per-group loop of `get_marginfi_accounts_by_group`: each group in
      order, from the empty prefix, stopping at the first error. */
  function EachGroup(scan: Scan, layout: Layout, groups: seq<Pubkey>): (f: Fetched)
    ensures |groups| > 0 ==> |f.queries| >= 1 && f.queries[0] == ScopedFilters(layout, groups[0], [])
  {
    if |groups| == 0 then Fetched(Ok([]), [])
    else
      var first := ForPrefix(scan, layout, groups[0], []);
      if first.result.Err? then first
      else
        var rest := EachGroup(scan, layout, groups[1..]);
        var result := if rest.result.Ok? then Ok(first.result.value + rest.result.value) else rest.result;
        Fetched(result, first.queries + rest.queries)
  }

  /** `get_marginfi_accounts_by_group`: with no group, one unscoped scan of
      all margin accounts; otherwise the groups one after the other. */
  function ByGroup(scan: Scan, layout: Layout, groups: seq<Pubkey>): (f: Fetched)
  {
    if |groups| == 0 then
      var filters := KindFilters(layout, MarginfiAccount);
      Fetched(scan(filters), [filters])
    else EachGroup(scan, layout, groups)
  }

  function GroupResults(scan: Scan, layout: Layout, groups: seq<Pubkey>): seq<Result<seq<Keyed>>>
  {
    seq(|groups|, i requires 0 <= i < |groups| => ForPrefix(scan, layout, groups[i], []).result)
  }

  /** With groups, the margin accounts are the first group error or the
      concatenation of every group's partition fetch, in group order; with
      none, they are the result of the single unscoped kind scan. */
  lemma {:induction false} ByGroupMeaning(scan: Scan, layout: Layout, groups: seq<Pubkey>)
    ensures |groups| == 0 ==>
      ByGroup(scan, layout, groups) == Fetched(scan(KindFilters(layout, MarginfiAccount)), [KindFilters(layout, MarginfiAccount)])
    ensures |groups| > 0 ==> ByGroup(scan, layout, groups).result == Gather(GroupResults(scan, layout, groups))
  {
    if |groups| > 0 {
      EachGroupMeaning(scan, layout, groups);
    }
  }

  lemma {:induction false} EachGroupMeaning(scan: Scan, layout: Layout, groups: seq<Pubkey>)
    ensures EachGroup(scan, layout, groups).result == Gather(GroupResults(scan, layout, groups))
  {
    if |groups| > 0 {
      EachGroupMeaning(scan, layout, groups[1..]);
      assert GroupResults(scan, layout, groups)[1..] == GroupResults(scan, layout, groups[1..]);
    }
  }

  /** The query traces of the first `count` groups' partition fetches. */
  function GroupQueries(scan: Scan, layout: Layout, groups: seq<Pubkey>, count: nat): seq<seq<seq<Filter>>>
    requires count <= |groups|
  {
    seq(count, i requires 0 <= i < count => ForPrefix(scan, layout, groups[i], []).queries)
  }

  /** One turn of the per-group loop. */
  lemma EachGroupStep(scan: Scan, layout: Layout, groups: seq<Pubkey>)
    requires |groups| > 0
    ensures var first := ForPrefix(scan, layout, groups[0], []);
      && (first.result.Err? ==> EachGroup(scan, layout, groups) == first)
      && (first.result.Ok? ==>
            EachGroup(scan, layout, groups).queries == first.queries + EachGroup(scan, layout, groups[1..]).queries)
  {
  }

  /** The per-group loop fetches the groups in order, up to and including the
      first group whose fetch fails and none after it; its queries are those
      fetches' queries, one after the other. */
  lemma {:induction false} EachGroupTrace(scan: Scan, layout: Layout, groups: seq<Pubkey>)
    ensures EachGroup(scan, layout, groups).queries
         == Flatten(GroupQueries(scan, layout, groups, IssuedCount(GroupResults(scan, layout, groups))))
  {
    if |groups| == 0 {
      assert GroupQueries(scan, layout, groups, 0) == [];
    } else if ForPrefix(scan, layout, groups[0], []).result.Err? {
      FailedGroupEndsLoop(scan, layout, groups);
    } else {
      EachGroupTrace(scan, layout, groups[1..]);
      GoodGroupContinues(scan, layout, groups);
    }
  }

  /** The loop turn whose group fetch fails: it is the last one. */
  lemma FailedGroupEndsLoop(scan: Scan, layout: Layout, groups: seq<Pubkey>)
    requires |groups| > 0 && ForPrefix(scan, layout, groups[0], []).result.Err?
    ensures EachGroup(scan, layout, groups).queries
         == Flatten(GroupQueries(scan, layout, groups, IssuedCount(GroupResults(scan, layout, groups))))
  {
    var rs := GroupResults(scan, layout, groups);
    var first := ForPrefix(scan, layout, groups[0], []);
    assert rs[0] == first.result;
    IssuedCountStep(rs);
    EachGroupStep(scan, layout, groups);
    assert GroupQueries(scan, layout, groups, 1) == [first.queries];
    assert Flatten([first.queries]) == first.queries + Flatten([]);
  }

  /** The loop turn whose group fetch succeeds: its queries come before those
      of the remaining groups. */
  lemma GoodGroupContinues(scan: Scan, layout: Layout, groups: seq<Pubkey>)
    requires |groups| > 0 && ForPrefix(scan, layout, groups[0], []).result.Ok?
    requires EachGroup(scan, layout, groups[1..]).queries
         == Flatten(GroupQueries(scan, layout, groups[1..], IssuedCount(GroupResults(scan, layout, groups[1..]))))
    ensures EachGroup(scan, layout, groups).queries
         == Flatten(GroupQueries(scan, layout, groups, IssuedCount(GroupResults(scan, layout, groups))))
  {
    var rs := GroupResults(scan, layout, groups);
    assert rs[0] == ForPrefix(scan, layout, groups[0], []).result;
    assert rs[1..] == GroupResults(scan, layout, groups[1..]);
    IssuedCountStep(rs);
    EachGroupStep(scan, layout, groups);
    GroupQueriesCons(scan, layout, groups, IssuedCount(rs[1..]));
  }

  lemma GroupQueriesCons(scan: Scan, layout: Layout, groups: seq<Pubkey>, k: nat)
    requires 1 + k <= |groups|
    ensures Flatten(GroupQueries(scan, layout, groups, 1 + k))
         == ForPrefix(scan, layout, groups[0], []).queries + Flatten(GroupQueries(scan, layout, groups[1..], k))
  {
    var first := ForPrefix(scan, layout, groups[0], []).queries;
    assert GroupQueries(scan, layout, groups, 1 + k) == [first] + GroupQueries(scan, layout, groups[1..], k);
    FlattenCons(first, GroupQueries(scan, layout, groups[1..], k));
  }

  /** `get_program_accounts`: all groups, then all banks, then the margin
      accounts of the fetched groups; the first failure ends the bootstrap. */
  function Bootstrap(scan: Scan, layout: Layout): (f: Fetched)
  {
    var groupFilters := KindFilters(layout, Group);
    var bankFilters := KindFilters(layout, Bank);
    match scan(groupFilters)
    case Err(e) => Fetched(Err(e), [groupFilters])
    case Ok(groups) =>
      match scan(bankFilters)
      case Err(e) => Fetched(Err(e), [groupFilters, bankFilters])
      case Ok(banks) =>
        var margin := ByGroup(scan, layout, Keys(groups));
        var result := if margin.result.Ok? then Ok(groups + banks + margin.result.value) else margin.result;
        Fetched(result, [groupFilters, bankFilters] + margin.queries)
  }

  /** The bootstrap queries groups first and banks second; it succeeds exactly
      when the group scan, the bank scan and the per-group fetch over the
      fetched group keys (in fetched order) all succeed, and then returns
      groups, banks and margin accounts in that order. A group failure stops
      before the bank scan, a bank failure before any margin-account scan. */
  lemma BootstrapOrder(scan: Scan, layout: Layout)
    ensures var f := Bootstrap(scan, layout);
      && f.queries[0] == KindFilters(layout, Group)
      && (scan(KindFilters(layout, Group)).Err? ==> f == Fetched(scan(KindFilters(layout, Group)), [KindFilters(layout, Group)]))
      && (scan(KindFilters(layout, Group)).Ok? ==> |f.queries| >= 2 && f.queries[1] == KindFilters(layout, Bank))
      && (scan(KindFilters(layout, Group)).Ok? && scan(KindFilters(layout, Bank)).Err? ==>
            f == Fetched(scan(KindFilters(layout, Bank)), [KindFilters(layout, Group), KindFilters(layout, Bank)]))
      && (scan(KindFilters(layout, Group)).Ok? && scan(KindFilters(layout, Bank)).Ok? ==>
            var m := ByGroup(scan, layout, Keys(scan(KindFilters(layout, Group)).value));
            && f.queries == [KindFilters(layout, Group), KindFilters(layout, Bank)] + m.queries
            && (m.result.Err? ==> f.result == m.result))
      && (f.result.Ok? <==>
            && scan(KindFilters(layout, Group)).Ok?
            && scan(KindFilters(layout, Bank)).Ok?
            && ByGroup(scan, layout, Keys(scan(KindFilters(layout, Group)).value)).result.Ok?)
      && (f.result.Ok? ==>
            f.result.value
              == scan(KindFilters(layout, Group)).value
               + scan(KindFilters(layout, Bank)).value
               + ByGroup(scan, layout, Keys(scan(KindFilters(layout, Group)).value)).result.value)
  {
  }

  /** With no group at all, margin accounts come from one unscoped scan that
      carries only the kind filters. */
  lemma BootstrapWithoutGroups(scan: Scan, layout: Layout)
    requires scan(KindFilters(layout, Group)) == Ok([])
    requires scan(KindFilters(layout, Bank)).Ok?
    ensures Bootstrap(scan, layout).queries
         == [KindFilters(layout, Group), KindFilters(layout, Bank), KindFilters(layout, MarginfiAccount)]
  {
  }
}

=== FILE: batch_lookup.dfy ===
/** `get_accounts` of src/comms/rpc_comms_client.rs: a known address list is
    looked up in consecutive batches of at most 100 addresses; addresses with
    no remote account are dropped and a failed batch fails the whole lookup.
    The remote multi-account call is a parameter returning, per address of
    the batch, the account or nothing. */
module BatchLookup {
  import opened Common
  import opened AccountFetch

  /** The most addresses one remote multi-account call is given. */
  const ADDRESSES_CHUNK_SIZE: nat := 100

  /** The remote multi-account lookup. */
  type MultiGet = seq<Pubkey> -> Result<seq<Option<Account>>>

  /** What a lookup returned, and the address batches it sent, in order. */
  datatype Looked = Looked(result: Result<seq<Keyed>>, batches: seq<seq<Pubkey>>)

  function Min(a: nat, b: nat): nat { if a < b then a else b }

  /** Pair each address with its answer, in order, keeping only the answers
      that hold an account; a shorter answer list ends the pairing. */
  function Present(chunk: seq<Pubkey>, found: seq<Option<Account>>): (r: seq<Keyed>)
    ensures |r| <= |chunk|
    ensures forall p :: p in r ==> p.0 in chunk
  {
    if |chunk| == 0 || |found| == 0 then []
    else
      var rest := Present(chunk[1..], found[1..]);
      (if found[0].Some? then [(chunk[0], found[0].value)] else []) + rest
  }

  /** What every lookup promises about the batches it sent and what it
      returned: each batch holds 1 to 100 addresses and every batch but the
      last holds exactly 100 and was answered; on success the batches are the
      addresses, in order, every one answered, and every returned pair is for
      one of the addresses; on failure the batches are a prefix of the
      addresses, the failed last one holding the next 100 addresses or all
      that remained, and it failed with the returned error. */
  predicate Batched(multi: MultiGet, addresses: seq<Pubkey>, l: Looked)
  {
    && (forall i :: 0 <= i < |l.batches| ==> 0 < |l.batches[i]| <= ADDRESSES_CHUNK_SIZE)
    && (forall i :: 0 <= i < |l.batches| - 1 ==> |l.batches[i]| == ADDRESSES_CHUNK_SIZE && multi(l.batches[i]).Ok?)
    && (l.result.Ok? ==>
      && Flatten(l.batches) == addresses
      && (forall b :: b in l.batches ==> multi(b).Ok?)
      && (forall p :: p in l.result.value ==> p.0 in addresses))
    && (l.result.Err? ==>
      && |l.batches| > 0
      && Flatten(l.batches) <= addresses
      && |Flatten(l.batches)| == Min(|addresses|, ADDRESSES_CHUNK_SIZE * |l.batches|)
      && multi(l.batches[|l.batches| - 1]) == Err(l.result.error))
  }

  /** `get_accounts`: one remote call per batch of the next (at most) 100
      addresses, the found pairs appended in address order. */
  function GetAccounts(multi: MultiGet, addresses: seq<Pubkey>): (l: Looked)
    ensures Batched(multi, addresses, l)
    decreases |addresses|
  {
    if |addresses| == 0 then Looked(Ok([]), [])
    else
      var n := Min(ADDRESSES_CHUNK_SIZE, |addresses|);
      var chunk := addresses[..n];
      match multi(chunk)
      case Err(e) =>
        assert Flatten([chunk]) == chunk + Flatten([]);
        Looked(Err(e), [chunk])
      case Ok(found) =>
        var rest := GetAccounts(multi, addresses[n..]);
        BatchStep(multi, addresses, n, found, rest);
        Looked(if rest.result.Ok? then Ok(Present(chunk, found) + rest.result.value) else rest.result, [chunk] + rest.batches)
  }

  /** One batch of the lookup put in front of the lookup of the remaining
      addresses keeps every property GetAccounts promises. */
  lemma BatchStep(multi: MultiGet, addresses: seq<Pubkey>, n: nat, found: seq<Option<Account>>, rest: Looked)
    requires 0 < n <= |addresses| && n <= ADDRESSES_CHUNK_SIZE
    requires n < |addresses| ==> n == ADDRESSES_CHUNK_SIZE
    requires multi(addresses[..n]) == Ok(found)
    requires Batched(multi, addresses[n..], rest)
    ensures Batched(multi, addresses,
      Looked(if rest.result.Ok? then Ok(Present(addresses[..n], found) + rest.result.value) else rest.result,
             [addresses[..n]] + rest.batches))
  {
    var chunk := addresses[..n];
    var bs := [chunk] + rest.batches;
    assert bs[1..] == rest.batches;
    if |rest.batches| > 0 {
      assert Flatten(rest.batches) == rest.batches[0] + Flatten(rest.batches[1..]);
      assert |Flatten(rest.batches)| > 0;
    }
    assert addresses == chunk + addresses[n..];
    assert Flatten(bs) == chunk + Flatten(rest.batches);
    forall i | 0 <= i < |bs| - 1 ensures |bs[i]| == ADDRESSES_CHUNK_SIZE && multi(bs[i]).Ok? {
      if i > 0 {
        assert bs[i] == rest.batches[i - 1];
      }
    }
    if rest.result.Ok? {
      forall p | p in Present(chunk, found) + rest.result.value ensures p.0 in addresses {
        if p in Present(chunk, found) {
          assert p.0 in chunk;
        }
      }
    }
  }

  /** The answers of a lookup that answers each address on its own. */
  function Answers(chunk: seq<Pubkey>, lookup: Pubkey -> Option<Account>): (r: seq<Option<Account>>)
    ensures |r| == |chunk|
  {
    seq(|chunk|, i requires 0 <= i < |chunk| => lookup(chunk[i]))
  }

  /** The remote call answers every batch address by address. */
  ghost predicate AnswersEach(multi: MultiGet, lookup: Pubkey -> Option<Account>)
  {
    forall chunk: seq<Pubkey> :: multi(chunk) == Ok(Answers(chunk, lookup))
  }

  /** Reference meaning, independent of batching: each address that has an
      account, paired with it, in input order. */
  function Found(addresses: seq<Pubkey>, lookup: Pubkey -> Option<Account>): seq<Keyed>
  {
    if |addresses| == 0 then []
    else
      (if lookup(addresses[0]).Some? then [(addresses[0], lookup(addresses[0]).value)] else [])
      + Found(addresses[1..], lookup)
  }

  lemma {:induction false} FoundAppend(a: seq<Pubkey>, b: seq<Pubkey>, lookup: Pubkey -> Option<Account>)
    ensures Found(a + b, lookup) == Found(a, lookup) + Found(b, lookup)
  {
    if |a| > 0 {
      assert (a + b)[1..] == a[1..] + b;
      FoundAppend(a[1..], b, lookup);
    } else {
      assert a + b == b;
    }
  }

  lemma {:induction false} PresentAnswers(chunk: seq<Pubkey>, lookup: Pubkey -> Option<Account>)
    ensures Present(chunk, Answers(chunk, lookup)) == Found(chunk, lookup)
  {
    if |chunk| > 0 {
      assert Answers(chunk, lookup)[1..] == Answers(chunk[1..], lookup);
      PresentAnswers(chunk[1..], lookup);
    }
  }

  /** When every address is answered on its own, the batched lookup returns
      exactly the addresses that have an account, each paired with it, in
      input order: batching changes nothing and missing accounts are dropped. */
  lemma {:induction false} LookupDropsMissing(multi: MultiGet, lookup: Pubkey -> Option<Account>, addresses: seq<Pubkey>)
    requires AnswersEach(multi, lookup)
    ensures GetAccounts(multi, addresses).result == Ok(Found(addresses, lookup))
    decreases |addresses|
  {
    if |addresses| > 0 {
      var n := Min(ADDRESSES_CHUNK_SIZE, |addresses|);
      var chunk := addresses[..n];
      assert multi(chunk) == Ok(Answers(chunk, lookup));
      LookupDropsMissing(multi, lookup, addresses[n..]);
      PresentAnswers(chunk, lookup);
      FoundAppend(chunk, addresses[n..], lookup);
      assert chunk + addresses[n..] == addresses;
    }
  }

  /** A failed batch fails the whole lookup with that batch's error, and no
      later batch is sent. */
  lemma FirstBatchFailure(multi: MultiGet, addresses: seq<Pubkey>)
    requires |addresses| > 0
    requires multi(addresses[..Min(ADDRESSES_CHUNK_SIZE, |addresses|)]).Err?
    ensures GetAccounts(multi, addresses)
         == Looked(Err(multi(addresses[..Min(ADDRESSES_CHUNK_SIZE, |addresses|)]).error), [addresses[..Min(ADDRESSES_CHUNK_SIZE, |addresses|)]])
  {
  }
}

=== FILE: common.dfy ===
/** Values shared by the account fetcher, the snapshot store and the service:
    bytes, 32-byte addresses, the error-carrying result type, and the
    "first error or concatenation" combinator that every sequential fetch
    loop of the fetcher follows. */
module Common {

  /** An unsigned 8-bit value. */
  type Byte = b: int | 0 <= b < 256

  /** Length of an address (a public key) in bytes. */
  const PUBKEY_BYTES: nat := 32

  /** A 32-byte address. */
  type Pubkey = k: seq<Byte> | |k| == PUBKEY_BYTES witness seq(PUBKEY_BYTES, _ => 0)

  /** A value that may be absent. */
  datatype Option<+T> = None | Some(value: T)

  /** The unit value, for operations that only succeed or fail. */
  datatype Unit = Unit

  /** A fallible computation: a value, or the text of the error that the
      source would carry in its error value. */
  datatype Result<+T> = Ok(value: T) | Err(error: string) {

    predicate IsFailure() {
      Err?
    }

    function PropagateFailure<U>(): Result<U>
      requires Err?
    {
      Err(error)
    }

    function Extract(): T
      requires Ok?
    {
      value
    }
  }

  /** Concatenation of a sequence of sequences, in order. */
  function Flatten<T>(xss: seq<seq<T>>): seq<T>
  {
    if |xss| == 0 then [] else xss[0] + Flatten(xss[1..])
  }

  /** Index of the first failed result, or |rs| when every result succeeded. */
  function FirstErr<T>(rs: seq<Result<T>>): (k: nat)
    ensures k <= |rs|
    ensures forall i :: 0 <= i < k ==> rs[i].Ok?
    ensures k < |rs| ==> rs[k].Err?
  {
    if |rs| == 0 then 0 else if rs[0].Err? then 0 else 1 + FirstErr(rs[1..])
  }

  /** How many fallible steps a stop-at-first-error loop runs: all of them,
      or up to and including the first failing one. */
  function IssuedCount<T>(rs: seq<Result<T>>): (k: nat)
    ensures k <= |rs|
  {
    if FirstErr(rs) < |rs| then FirstErr(rs) + 1 else |rs|
  }

  /** Reference meaning of a loop that runs fallible steps in order, stops at
      the first error and returns it, and otherwise returns the concatenation
      of all the step results. */
  function Gather<T>(rs: seq<Result<seq<T>>>): (r: Result<seq<T>>)
  {
    if |rs| == 0 then Ok([])
    else if rs[0].Err? then Err(rs[0].error)
    else match Gather(rs[1..])
      case Ok(rest) => Ok(rs[0].value + rest)
      case Err(e) => Err(e)
  }

  /** The values of a prefix of successful results. */
  function Values<T>(rs: seq<Result<seq<T>>>): seq<seq<T>>
    requires forall i :: 0 <= i < |rs| ==> rs[i].Ok?
  {
    seq(|rs|, i requires 0 <= i < |rs| => rs[i].value)
  }

  /** Gather fails exactly when one of the steps fails, with the error of the
      first failing step; otherwise it concatenates all step values in order. */
  lemma {:induction false} GatherMeaning<T>(rs: seq<Result<seq<T>>>)
    ensures Gather(rs).Ok? <==> forall i :: 0 <= i < |rs| ==> rs[i].Ok?
    ensures Gather(rs).Err? ==> FirstErr(rs) < |rs| && Gather(rs).error == rs[FirstErr(rs)].error
    ensures Gather(rs).Ok? ==> Gather(rs).value == Flatten(Values(rs))
  {
    if |rs| > 0 {
      GatherMeaning(rs[1..]);
      if rs[0].Ok? && Gather(rs[1..]).Ok? {
        assert forall i :: 0 <= i < |rs| ==> rs[i].Ok? by {
          forall i | 0 < i < |rs| ensures rs[i].Ok? {
            assert rs[i] == rs[1..][i - 1];
          }
        }
        assert Values(rs)[1..] == Values(rs[1..]);
      } else if rs[0].Ok? {
        var j := FirstErr(rs[1..]);
        assert rs[1..][j] == rs[j + 1];
      }
    }
  }

  /** One step of Gather, IssuedCount and Flatten. */
  lemma GatherStep<T>(rs: seq<Result<seq<T>>>)
    requires |rs| > 0
    ensures rs[0].Err? ==> Gather(rs) == Err(rs[0].error)
    ensures rs[0].Ok? ==> Gather(rs) == (if Gather(rs[1..]).Ok? then Ok(rs[0].value + Gather(rs[1..]).value) else Gather(rs[1..]))
  {
  }

  lemma IssuedCountStep<T>(rs: seq<Result<T>>)
    requires |rs| > 0
    ensures rs[0].Ok? ==> IssuedCount(rs) == 1 + IssuedCount(rs[1..])
    ensures rs[0].Err? ==> IssuedCount(rs) == 1
  {
  }

  lemma FlattenCons<T>(xs: seq<T>, xss: seq<seq<T>>)
    ensures Flatten([xs] + xss) == xs + Flatten(xss)
  {
    assert ([xs] + xss)[1..] == xss;
  }
}

=== FILE: filters.dfy ===
/** Server-side filters of the account fetcher: the per-kind data-size and
    discriminator filters, the group and authority-prefix byte matches of a
    scoped margin-account scan, and the recognition of the scan-limit
    rejection (src/comms/rpc_comms_client.rs). */
module Filters {
  import opened Common
  import Text

  const ANCHOR_DISCRIMINATOR_LEN: nat := 8
  /** A margin account stores its group right after the discriminator ... */
  const MARGINFI_ACCOUNT_GROUP_OFFSET: nat := ANCHOR_DISCRIMINATOR_LEN
  /** ... and its owner authority right after the group. */
  const MARGINFI_ACCOUNT_AUTHORITY_OFFSET: nat := ANCHOR_DISCRIMINATOR_LEN + PUBKEY_BYTES

  /** The text by which the remote interface signals that a scan matched too
      many accounts; no structured error code exists. */
  const SCAN_LIMIT_MESSAGE: string := "scan aborted: The accumulated scan results exceeded the limit"

  /** The three program account kinds the fetcher asks for. */
  datatype AccountKind = Group | Bank | MarginfiAccount

  /** The on-chain layout, which the model does not derive: the byte size of
      each kind's body and each kind's 8-byte discriminator. */
  datatype Layout = Layout(
    groupBodyLen: nat, bankBodyLen: nat, accountBodyLen: nat,
    groupTag: seq<Byte>, bankTag: seq<Byte>, accountTag: seq<Byte>)
  {
    /** Total data length of an account of the kind: discriminator plus body. */
    function DataSize(kind: AccountKind): nat
    {
      ANCHOR_DISCRIMINATOR_LEN + match kind
        case Group => groupBodyLen
        case Bank => bankBodyLen
        case MarginfiAccount => accountBodyLen
    }

    function Discriminator(kind: AccountKind): seq<Byte>
    {
      match kind
      case Group => groupTag
      case Bank => bankTag
      case MarginfiAccount => accountTag
    }
  }

  /** A server-side filter: exact data length, or exact bytes at an offset. */
  datatype Filter = DataSize(size: nat) | Memcmp(offset: nat, bytes: seq<Byte>)

  /** `MarginfiProgramAccountType::filters`: the data size of the kind, and
      its discriminator at offset 0. */
  function KindFilters(layout: Layout, kind: AccountKind): seq<Filter>
  {
    [DataSize(layout.DataSize(kind)), Memcmp(0, layout.Discriminator(kind))]
  }

  /** The filters of a margin-account scan scoped to a group and, when the
      prefix is not empty, to owner authorities starting with the prefix. */
  function ScopedFilters(layout: Layout, group: Pubkey, prefix: seq<Byte>): (fs: seq<Filter>)
  {
    KindFilters(layout, MarginfiAccount)
      + [Memcmp(MARGINFI_ACCOUNT_GROUP_OFFSET, group)]
      + (if |prefix| == 0 then [] else [Memcmp(MARGINFI_ACCOUNT_AUTHORITY_OFFSET, prefix)])
  }

  /** Shape of every filter list a scoped scan may send: the margin-account
      kind filters, the group match at offset 8, and at most one more filter,
      a non-empty authority match at offset 40. */
  predicate IsScoped(layout: Layout, group: Pubkey, fs: seq<Filter>)
  {
    && (|fs| == 3 || |fs| == 4)
    && fs[..2] == KindFilters(layout, MarginfiAccount)
    && fs[2] == Memcmp(MARGINFI_ACCOUNT_GROUP_OFFSET, group)
    && (|fs| == 4 ==> fs[3].Memcmp? && fs[3].offset == MARGINFI_ACCOUNT_AUTHORITY_OFFSET && |fs[3].bytes| > 0)
  }

  /** The authority prefix a scoped filter list restricts to (empty when it
      carries no authority match). */
  function AuthorityPrefix(fs: seq<Filter>): seq<Byte>
  {
    if |fs| == 4 && fs[3].Memcmp? then fs[3].bytes else []
  }

  /** Every scoped scan carries the kind filters and the group match; the
      authority match is present exactly when the prefix is non-empty, and the
      prefix can be read back from the filters. */
  lemma ScopedFiltersShape(layout: Layout, group: Pubkey, prefix: seq<Byte>)
    ensures IsScoped(layout, group, ScopedFilters(layout, group, prefix))
    ensures AuthorityPrefix(ScopedFilters(layout, group, prefix)) == prefix
    ensures |ScopedFilters(layout, group, prefix)| == 4 <==> |prefix| > 0
    ensures ScopedFilters(layout, group, prefix)[0] == DataSize(layout.DataSize(MarginfiAccount))
    ensures ScopedFilters(layout, group, prefix)[1] == Memcmp(0, layout.accountTag)
  {
  }

  /** Scoped filter lists for different groups or prefixes differ: no two
      sub-queries of the partition search ask the same question. */
  lemma ScopedFiltersInjective(layout: Layout, g1: Pubkey, p1: seq<Byte>, g2: Pubkey, p2: seq<Byte>)
    requires ScopedFilters(layout, g1, p1) == ScopedFilters(layout, g2, p2)
    ensures g1 == g2 && p1 == p2
  {
    ScopedFiltersShape(layout, g1, p1);
    ScopedFiltersShape(layout, g2, p2);
    assert ScopedFilters(layout, g1, p1)[2] == ScopedFilters(layout, g2, p2)[2];
  }

  /** `is_scan_limit_error`: the error text contains the scan-limit message. */
  predicate IsScanLimitError(error: string)
  {
    Text.Contains(error, SCAN_LIMIT_MESSAGE)
  }

  /** The classification is a pure substring test: the message wrapped in any
      surrounding context is recognised, and a text with no occurrence of the
      message at any position is not. */
  lemma ScanLimitClassification(error: string)
    ensures IsScanLimitError(error) <==> exists i :: Text.OccursAt(error, SCAN_LIMIT_MESSAGE, i)
  {
    Text.ContainsMeaning(error, SCAN_LIMIT_MESSAGE);
  }

  lemma ScanLimitInContext(context: string, detail: string)
    ensures IsScanLimitError(context + SCAN_LIMIT_MESSAGE + detail)
  {
    Text.ContainsEmbedded(context, SCAN_LIMIT_MESSAGE, detail);
  }
}

=== FILE: service.dfy ===
/** `ServiceManager::start` of src/service.rs as an event trace: restore or
    bootstrap, the three worker spawns, and the supervising loop with its
    snapshot timer. The restore result, each loader's and each persist's
    outcome, the clock readings and the stop flag are inputs; every call the
    service makes is recorded as an event, in order. */
module Service {
  import opened Common

  /** The three long-running workers, in spawn order. */
  datatype Worker = GeyserProcessor | GeyserSubscriber | LiquidationService

  const WORKERS: seq<Worker> := [GeyserProcessor, GeyserSubscriber, LiquidationService]

  datatype Event =
    | RestoreAttempted(outcome: Result<bool>)
    | AuxiliaryLoad(ok: bool)
    | CacheLoad(ok: bool)
    | InitialPersist(ok: bool)
    | Spawned(worker: Worker)
    | PeriodicPersist(ok: bool)
    | StatsLogged(ok: bool)
    | Slept
    | LoopStopped

  /** Outcomes of the calls `start` makes before the loop. */
  datatype Outcomes = Outcomes(
    restore: Result<bool>, loadAuxiliary: Result<Unit>, loadCache: Result<Unit>, initialPersist: Result<Unit>)

  /** Whether the restore reported a restored snapshot; an error counts as
      "not restored". */
  predicate Restored(o: Outcomes) { o.restore == Ok(true) }

  /** The outcome of the loader `start` runs: the auxiliary load after a
      restore, the full load otherwise. */
  function LoaderOutcome(o: Outcomes): Result<Unit>
  {
    if Restored(o) then o.loadAuxiliary else o.loadCache
  }

  datatype Boot = Boot(result: Result<Unit>, events: seq<Event>)

  function Spawns(): (es: seq<Event>)
    ensures |es| == 3 && forall i :: 0 <= i < 3 ==> es[i] == Spawned(WORKERS[i])
  {
    [Spawned(GeyserProcessor), Spawned(GeyserSubscriber), Spawned(LiquidationService)]
  }

  /** The cache is filled once one of these events is in the trace. */
  predicate Populates(e: Event)
  {
    e == AuxiliaryLoad(true) || e == CacheLoad(true)
  }

  predicate IsSpawn(e: Event) { e.Spawned? }

  /** Every spawn comes after an event that filled the cache. */
  predicate SpawnsAfterPopulation(es: seq<Event>)
  {
    forall i :: 0 <= i < |es| && IsSpawn(es[i]) ==> exists j :: 0 <= j < i && Populates(es[j])
  }

  /** How many full loads the trace records. */
  function CacheLoads(es: seq<Event>): nat
  {
    multiset(es)[CacheLoad(true)] + multiset(es)[CacheLoad(false)]
  }

  /** What the part of `start` before the loop promises: it ends with the
      outcome of the loader it ran; it first attempts the restore; a restored
      snapshot is followed by the auxiliary load and no full load, anything
      else by exactly one full load and, when that succeeds, the initial
      persist; a failure spawns nothing, a success ends with the three
      spawns; and every spawn comes after the cache was filled. */
  predicate BootShaped(o: Outcomes, b: Boot)
  {
    && b.result == LoaderOutcome(o)
    && |b.events| >= 2 && b.events[0] == RestoreAttempted(o.restore)
    && (Restored(o) ==> b.events[1] == AuxiliaryLoad(o.loadAuxiliary.Ok?) && CacheLoads(b.events) == 0)
    && (!Restored(o) ==> b.events[1] == CacheLoad(o.loadCache.Ok?) && CacheLoads(b.events) == 1)
    && (b.result.Err? ==> forall i :: 0 <= i < |b.events| ==> !IsSpawn(b.events[i]))
    && (b.result.Ok? ==> |b.events| >= 5 && b.events[|b.events| - 3..] == Spawns())
    && (!Restored(o) && o.loadCache.Ok? ==> |b.events| >= 3 && b.events[2] == InitialPersist(o.initialPersist.Ok?))
    && SpawnsAfterPopulation(b.events)
  }

  /** Nothing else happens before the loop: the trace has exactly the events
      `BootShaped` names, and the initial persist is attempted exactly after a
      successful full load (never after a restored snapshot). */
  predicate BootExact(o: Outcomes, b: Boot)
  {
    && |b.events| == 2 + (if !Restored(o) && o.loadCache.Ok? then 1 else 0) + (if b.result.Ok? then 3 else 0)
    && ((exists i :: 0 <= i < |b.events| && b.events[i].InitialPersist?) <==> !Restored(o) && o.loadCache.Ok?)
  }

  /** The part of `start` before the loop: a restored snapshot is followed by
      the auxiliary load; "not restored" or a restore error by the full load
      and an initial persist whose failure is only logged; a loader failure
      ends `start` with that error before any worker is spawned. */
  function Startup(o: Outcomes): (b: Boot)
    ensures BootShaped(o, b)
    ensures BootExact(o, b)
  {
    var tried := RestoreAttempted(o.restore);
    if Restored(o) then
      if o.loadAuxiliary.Err? then
        FailedBoot(o, AuxiliaryLoad(false));
        FailedBootExact(o, AuxiliaryLoad(false));
        Boot(o.loadAuxiliary, [tried, AuxiliaryLoad(false)])
      else
        SpawningBoot(o, [tried, AuxiliaryLoad(true)]);
        SpawningBootExact(o, [tried, AuxiliaryLoad(true)]);
        Boot(o.loadAuxiliary, [tried, AuxiliaryLoad(true)] + Spawns())
    else
      if o.loadCache.Err? then
        FailedBoot(o, CacheLoad(false));
        FailedBootExact(o, CacheLoad(false));
        Boot(o.loadCache, [tried, CacheLoad(false)])
      else
        SpawningBoot(o, [tried, CacheLoad(true), InitialPersist(o.initialPersist.Ok?)]);
        SpawningBootExact(o, [tried, CacheLoad(true), InitialPersist(o.initialPersist.Ok?)]);
        Boot(o.loadCache, [tried, CacheLoad(true), InitialPersist(o.initialPersist.Ok?)] + Spawns())
  }

  /** A failed loader: the restore attempt and the load, nothing more. */
  lemma FailedBoot(o: Outcomes, load: Event)
    requires LoaderOutcome(o).Err?
    requires load == (if Restored(o) then AuxiliaryLoad(false) else CacheLoad(false))
    ensures BootShaped(o, Boot(LoaderOutcome(o), [RestoreAttempted(o.restore), load]))
  {
    var es := [RestoreAttempted(o.restore), load];
    assert multiset(es)[CacheLoad(true)] == 0;
    assert multiset(es)[CacheLoad(false)] == (if Restored(o) then 0 else 1);
  }

  /** A successful loader: the events up to the spawns, then the spawns. */
  lemma SpawningBoot(o: Outcomes, head: seq<Event>)
    requires LoaderOutcome(o).Ok?
    requires head == if Restored(o) then [RestoreAttempted(o.restore), AuxiliaryLoad(true)]
      else [RestoreAttempted(o.restore), CacheLoad(true), InitialPersist(o.initialPersist.Ok?)]
    ensures BootShaped(o, Boot(LoaderOutcome(o), head + Spawns()))
  {
    var es := head + Spawns();
    PopulatedBefore(head, Spawns());
    assert es[..|head|] == head;
    assert es[0] == head[0] && es[1] == head[1];
    if Restored(o) {
      assert multiset(head)[CacheLoad(true)] == 0 && multiset(head)[CacheLoad(false)] == 0;
    } else {
      assert multiset(head)[CacheLoad(true)] == 1 && multiset(head)[CacheLoad(false)] == 0;
      assert es[2] == head[2];
    }
  }

  lemma FailedBootExact(o: Outcomes, load: Event)
    requires LoaderOutcome(o).Err?
    requires load == (if Restored(o) then AuxiliaryLoad(false) else CacheLoad(false))
    ensures BootExact(o, Boot(LoaderOutcome(o), [RestoreAttempted(o.restore), load]))
  {
    var es := [RestoreAttempted(o.restore), load];
    assert forall i :: 0 <= i < |es| ==> !es[i].InitialPersist?;
  }

  lemma SpawningBootExact(o: Outcomes, head: seq<Event>)
    requires LoaderOutcome(o).Ok?
    requires head == if Restored(o) then [RestoreAttempted(o.restore), AuxiliaryLoad(true)]
      else [RestoreAttempted(o.restore), CacheLoad(true), InitialPersist(o.initialPersist.Ok?)]
    ensures BootExact(o, Boot(LoaderOutcome(o), head + Spawns()))
  {
    var es := head + Spawns();
    if Restored(o) {
      forall i | 0 <= i < |es| ensures !es[i].InitialPersist? {
        if i >= 2 {
          assert es[i] == Spawns()[i - 2];
        }
      }
    } else {
      assert es[2] == head[2];
    }
  }

  /** A head that fills the cache at its second event and spawns nothing,
      followed by spawns and anything else. */
  lemma PopulatedBefore(head: seq<Event>, tail: seq<Event>)
    requires |head| >= 2 && Populates(head[1])
    requires forall i :: 0 <= i < |head| ==> !IsSpawn(head[i])
    requires forall i :: 0 <= i < |tail| ==> IsSpawn(tail[i])
    ensures SpawnsAfterPopulation(head + tail)
    ensures (head + tail)[|head + tail| - |tail|..] == tail
    ensures CacheLoads(head + tail) == CacheLoads(head)
  {
    var es := head + tail;
    assert es[1] == head[1];
    assert multiset(es) == multiset(head) + multiset(tail);
    assert CacheLoad(true) !in tail && CacheLoad(false) !in tail;
  }

  /** What one pass of the loop observes: whether the stop flag is set, the
      clock when the timer is checked, the persist outcome and the clock
      right after it, and the stats outcome. */
  datatype Tick = Tick(stop: bool, now: nat, persist: Result<Unit>, persistedAt: nat, stats: Result<Unit>)

  /** Time since `since`, never negative. */
  function Elapsed(now: nat, since: nat): nat
  {
    if now >= since then now - since else 0
  }

  datatype LoopRun = LoopRun(events: seq<Event>, stopped: bool)

  /** Index of the first pass that sees the stop flag, or |ticks|. */
  function FirstStop(ticks: seq<Tick>): (k: nat)
    ensures k <= |ticks|
    ensures forall i :: 0 <= i < k ==> !ticks[i].stop
    ensures k < |ticks| ==> ticks[k].stop
  {
    if |ticks| == 0 || ticks[0].stop then 0 else 1 + FirstStop(ticks[1..])
  }

  /** The events the loop itself can produce. */
  predicate InLoop(e: Event)
  {
    e.PeriodicPersist? || e.StatsLogged? || e == Slept || e == LoopStopped
  }

  /** Whether the snapshot timer is due at this pass. */
  predicate Due(t: Tick, last: nat, interval: nat)
  {
    Elapsed(t.now, last) >= interval
  }

  /** Where the timer stands after the pass: restarted at the clock read
      after the persist attempt, whatever its outcome, or left alone. */
  function NextTimer(t: Tick, last: nat, interval: nat): nat
  {
    if Due(t, last, interval) then t.persistedAt else last
  }

  /** The events of one pass that does not see the stop flag: the persist
      when the timer is due, then the stats, then the sleep. */
  function Pass(t: Tick, last: nat, interval: nat): (p: seq<Event>)
    ensures |p| == (if Due(t, last, interval) then 3 else 2)
    ensures Due(t, last, interval) ==> p[0] == PeriodicPersist(t.persist.Ok?)
    ensures p[|p| - 2] == StatsLogged(t.stats.Ok?) && p[|p| - 1] == Slept
    ensures forall i :: 0 <= i < |p| ==> InLoop(p[i]) && p[i] != LoopStopped
    ensures multiset(p)[Slept] == 1
  {
    (if Due(t, last, interval) then [PeriodicPersist(t.persist.Ok?)] else [])
      + [StatsLogged(t.stats.Ok?), Slept]
  }

  /** What the loop promises over the passes it was given: it returns
      exactly when one of them sees the stop flag, and then `LoopStopped` is
      its last event and appears nowhere else; it produces only loop events;
      and it sleeps once per pass before the first that sees the flag. */
  predicate LoopShaped(ticks: seq<Tick>, r: LoopRun)
  {
    && (r.stopped <==> exists k :: 0 <= k < |ticks| && ticks[k].stop)
    && (r.stopped ==> |r.events| > 0 && r.events[|r.events| - 1] == LoopStopped)
    && (forall i :: 0 <= i < |r.events| ==> InLoop(r.events[i]))
    && (forall i :: 0 <= i < |r.events| - 1 ==> r.events[i] != LoopStopped)
    && multiset(r.events)[Slept] == FirstStop(ticks)
  }

  /** The supervising loop over the passes it gets to run, starting with the
      snapshot timer at `last`: leave only when the stop flag is seen at the
      top of a pass; otherwise run the pass and go on with the timer where
      the pass left it. */
  function MainLoop(ticks: seq<Tick>, last: nat, interval: nat): (r: LoopRun)
    ensures LoopShaped(ticks, r)
    decreases |ticks|
  {
    if |ticks| == 0 then LoopRun([], false)
    else if ticks[0].stop then LoopRun([LoopStopped], true)
    else
      var pass := Pass(ticks[0], last, interval);
      var rest := MainLoop(ticks[1..], NextTimer(ticks[0], last, interval), interval);
      LoopStep(ticks, pass, rest);
      LoopRun(pass + rest.events, rest.stopped)
  }

  /** A pass that does not see the stop flag, put in front of the rest of
      the loop, keeps the loop's shape. */
  lemma LoopStep(ticks: seq<Tick>, pass: seq<Event>, rest: LoopRun)
    requires |ticks| > 0 && !ticks[0].stop
    requires forall i :: 0 <= i < |pass| ==> InLoop(pass[i]) && pass[i] != LoopStopped
    requires multiset(pass)[Slept] == 1
    requires LoopShaped(ticks[1..], rest)
    ensures LoopShaped(ticks, LoopRun(pass + rest.events, rest.stopped))
  {
    if rest.stopped {
      var k :| 0 <= k < |ticks[1..]| && ticks[1..][k].stop;
      assert ticks[k + 1] == ticks[1..][k];
    }
    if exists k :: 0 <= k < |ticks| && ticks[k].stop {
      var k :| 0 <= k < |ticks| && ticks[k].stop;
      assert k > 0 && ticks[1..][k - 1] == ticks[k];
    }
    var es := pass + rest.events;
    forall i | 0 <= i < |es| ensures InLoop(es[i]) && (i < |es| - 1 ==> es[i] != LoopStopped) {
      if i >= |pass| {
        assert es[i] == rest.events[i - |pass|];
      }
    }
    assert multiset(es) == multiset(pass) + multiset(rest.events);
  }

  /** One pass, stated on its own: the persist is attempted exactly when the
      elapsed time reaches the interval, the timer restarts at the clock read
      after the attempt whether it failed or not, and the pass continues with
      the stats and the sleep either way. */
  lemma LoopPass(ticks: seq<Tick>, last: nat, interval: nat)
    requires |ticks| > 0 && !ticks[0].stop
    ensures var t := ticks[0];
      var due := Elapsed(t.now, last) >= interval;
      MainLoop(ticks, last, interval).events
        == (if due then [PeriodicPersist(t.persist.Ok?)] else [])
           + [StatsLogged(t.stats.Ok?), Slept]
           + MainLoop(ticks[1..], if due then t.persistedAt else last, interval).events
  {
  }

  /** Two runs of passes that agree on the stop flag and the clock readings. */
  predicate SameTiming(a: seq<Tick>, b: seq<Tick>)
  {
    |a| == |b| && forall i :: 0 <= i < |a| ==>
      a[i].stop == b[i].stop && a[i].now == b[i].now && a[i].persistedAt == b[i].persistedAt
  }

  /** The event with its outcome forgotten. */
  function Forget(e: Event): Event
  {
    match e
    case PeriodicPersist(_) => PeriodicPersist(true)
    case StatsLogged(_) => StatsLogged(true)
    case other => other
  }

  /** The trace with every loop outcome forgotten. */
  function Shape(es: seq<Event>): (r: seq<Event>)
  {
    seq(|es|, i requires 0 <= i < |es| => Forget(es[i]))
  }

  lemma ShapeAppend(a: seq<Event>, b: seq<Event>)
    ensures Shape(a + b) == Shape(a) + Shape(b)
  {
  }

  /** Persist and stats failures never change what the loop does next: with
      the same stop flags and clock readings, the same passes run and persist
      is attempted in the same passes, whatever the outcomes. */
  lemma {:induction false} OutcomesDoNotSteer(a: seq<Tick>, b: seq<Tick>, last: nat, interval: nat)
    requires SameTiming(a, b)
    ensures Shape(MainLoop(a, last, interval).events) == Shape(MainLoop(b, last, interval).events)
    ensures MainLoop(a, last, interval).stopped == MainLoop(b, last, interval).stopped
    decreases |a|
  {
    if |a| > 0 && !a[0].stop {
      var next := NextTimer(a[0], last, interval);
      assert next == NextTimer(b[0], last, interval);
      assert SameTiming(a[1..], b[1..]);
      OutcomesDoNotSteer(a[1..], b[1..], next, interval);
      var pa := Pass(a[0], last, interval);
      var pb := Pass(b[0], last, interval);
      ShapeAppend(pa, MainLoop(a[1..], next, interval).events);
      ShapeAppend(pb, MainLoop(b[1..], next, interval).events);
      PassShape(a[0], last, interval);
      PassShape(b[0], last, interval);
    }
  }

  /** A pass with its outcomes forgotten depends only on whether the timer
      was due. */
  lemma PassShape(t: Tick, last: nat, interval: nat)
    ensures Shape(Pass(t, last, interval))
         == (if Due(t, last, interval) then [PeriodicPersist(true)] else []) + [StatsLogged(true), Slept]
  {
    var p := Pass(t, last, interval);
    var q := (if Due(t, last, interval) then [PeriodicPersist(true)] else []) + [StatsLogged(true), Slept];
    assert |Shape(p)| == |q|;
    forall i | 0 <= i < |p| ensures Shape(p)[i] == q[i] {
      assert Shape(p)[i] == Forget(p[i]);
    }
  }

  /** Where `start` is: returned with an error, still in the loop, or
      returned normally after the stop flag was seen. */
  datatype Status = Failed(error: string) | Running | Returned

  datatype Run = Run(status: Status, events: seq<Event>)

  /** `ServiceManager::start`: the startup sequence, then, if it succeeded,
      the loop with its timer started at `started`; a successful start
      always enters the loop, so everything proved of `MainLoop` holds of the
      events after the spawns. */
  function Start(o: Outcomes, ticks: seq<Tick>, started: nat, interval: nat): (r: Run)
    ensures r.status.Failed? <==> Startup(o).result.Err?
    ensures r.status.Failed? ==> r.events == Startup(o).events
    ensures !r.status.Failed? ==> r.events == Startup(o).events + MainLoop(ticks, started, interval).events
    ensures r.status == Returned <==> Startup(o).result.Ok? && exists k :: 0 <= k < |ticks| && ticks[k].stop
    ensures SpawnsAfterPopulation(r.events)
  {
    var boot := Startup(o);
    if boot.result.Err? then Run(Failed(boot.result.error), boot.events)
    else
      var loop := MainLoop(ticks, started, interval);
      LoopAfterBoot(boot.events, loop.events);
      Run(if loop.stopped then Returned else Running, boot.events + loop.events)
  }

  /** Appending loop events keeps every spawn after a population event, and
      adds no full load. */
  lemma LoopAfterBoot(boot: seq<Event>, loop: seq<Event>)
    requires SpawnsAfterPopulation(boot)
    requires forall i :: 0 <= i < |loop| ==> InLoop(loop[i])
    ensures SpawnsAfterPopulation(boot + loop)
    ensures CacheLoads(boot + loop) == CacheLoads(boot)
  {
    var es := boot + loop;
    forall i | 0 <= i < |es| && IsSpawn(es[i]) ensures exists j :: 0 <= j < i && Populates(es[j]) {
      var j :| 0 <= j < i && Populates(boot[j]);
      assert es[j] == boot[j];
    }
    assert multiset(es) == multiset(boot) + multiset(loop);
    assert CacheLoad(true) !in loop && CacheLoad(false) !in loop;
  }

  /** A restored snapshot means the auxiliary load and no full load. */
  lemma RestoredSkipsBootstrap(o: Outcomes, ticks: seq<Tick>, started: nat, interval: nat)
    requires o.restore == Ok(true)
    ensures var r := Start(o, ticks, started, interval);
      AuxiliaryLoad(o.loadAuxiliary.Ok?) in r.events && CacheLoads(r.events) == 0
  {
    var r := Start(o, ticks, started, interval);
    var boot := Startup(o);
    assert r.events[1] == boot.events[1];
    if !r.status.Failed? {
      LoopAfterBoot(boot.events, MainLoop(ticks, started, interval).events);
    }
  }

  /** "Not restored" and a restore error both fall through to exactly one
      full load; a restore error is never what `start` fails with. */
  lemma NotRestoredBootstraps(o: Outcomes, ticks: seq<Tick>, started: nat, interval: nat)
    requires o.restore != Ok(true)
    ensures var r := Start(o, ticks, started, interval);
      && CacheLoad(o.loadCache.Ok?) in r.events
      && CacheLoads(r.events) == 1
      && (r.status.Failed? <==> o.loadCache.Err?)
      && (r.status.Failed? ==> r.status.error == o.loadCache.error)
  {
    var r := Start(o, ticks, started, interval);
    var boot := Startup(o);
    assert r.events[1] == boot.events[1];
    if !r.status.Failed? {
      LoopAfterBoot(boot.events, MainLoop(ticks, started, interval).events);
    }
  }

  /** After a successful full load the initial persist is attempted, and its
      failure does not stop the workers from being spawned. */
  lemma InitialPersistTolerated(o: Outcomes, ticks: seq<Tick>, started: nat, interval: nat)
    requires o.restore != Ok(true) && o.loadCache.Ok?
    ensures var r := Start(o, ticks, started, interval);
      && r.events[1] == CacheLoad(true)
      && r.events[2] == InitialPersist(o.initialPersist.Ok?)
      && !r.status.Failed?
      && r.events[3..6] == Spawns()
  {
  }

  /** The initial persist is attempted exactly after a successful full
      load: never after a restored snapshot, never after a failed load, and
      never by the loop. */
  lemma InitialPersistOnlyAfterFullLoad(o: Outcomes, ticks: seq<Tick>, started: nat, interval: nat)
    ensures var r := Start(o, ticks, started, interval);
      (exists i :: 0 <= i < |r.events| && r.events[i].InitialPersist?) <==> !Restored(o) && o.loadCache.Ok?
  {
    var boot := Startup(o);
    var r := Start(o, ticks, started, interval);
    assert BootExact(o, boot);
    if boot.result.Err? {
      assert r.events == boot.events;
    } else {
      var loop := MainLoop(ticks, started, interval);
      assert r.events == boot.events + loop.events;
      LoopAddsNoInitialPersist(boot.events, loop.events);
    }
  }

  /** Loop events appended to a trace add no initial persist. */
  lemma LoopAddsNoInitialPersist(boot: seq<Event>, loop: seq<Event>)
    requires forall i :: 0 <= i < |loop| ==> InLoop(loop[i])
    ensures (exists i :: 0 <= i < |boot + loop| && (boot + loop)[i].InitialPersist?)
        <==> (exists i :: 0 <= i < |boot| && boot[i].InitialPersist?)
  {
    var es := boot + loop;
    if exists i :: 0 <= i < |es| && es[i].InitialPersist? {
      var i :| 0 <= i < |es| && es[i].InitialPersist?;
      if i < |boot| {
        assert es[i] == boot[i];
      } else {
        assert false;
      }
    }
    if exists i :: 0 <= i < |boot| && boot[i].InitialPersist? {
      var i :| 0 <= i < |boot| && boot[i].InitialPersist?;
      assert es[i] == boot[i];
    }
  }

  /** A failed loader makes `start` fail with that loader's error, and no
      worker is spawned. */
  lemma LoaderFailureStopsBeforeSpawn(o: Outcomes, ticks: seq<Tick>, started: nat, interval: nat)
    requires if o.restore == Ok(true) then o.loadAuxiliary.Err? else o.loadCache.Err?
    ensures var r := Start(o, ticks, started, interval);
      && r.status == Failed(if o.restore == Ok(true) then o.loadAuxiliary.error else o.loadCache.error)
      && forall e :: e in r.events ==> !IsSpawn(e)
  {
  }
}

=== FILE: snapshot_store.dfy ===
/** The snapshot store of src/cache/snapshot.rs: capture of the cache into a
    versioned snapshot, persist through a temporary file renamed over the
    target, and version-gated restore.

    The cache is a plain value of three lock-guarded cells (clock, margin
    accounts, banks); a poisoned cell fails every access, as the cache's own
    accessors may. The filesystem is a map from path to file; the codec is a
    pair of functions, with the round trip as a hypothesis where it is used;
    the wall clock and the outcome of each write and rename are parameters. */
module SnapshotStore {
  import opened Common

  const SNAPSHOT_VERSION: nat := 1

  /** The ledger clock, replaced as a whole. */
  datatype Clock = Clock(slot: nat, epochStartTimestamp: int, epoch: nat, leaderScheduleEpoch: nat, unixTimestamp: int)

  /** One cached account as stored in a snapshot. */
  datatype SnapshotAccount = SnapshotAccount(address: Pubkey, slot: nat, data: seq<Byte>)

  datatype CacheSnapshot = CacheSnapshot(
    version: nat, generatedAtUnix: nat, clock: Clock,
    marginfiAccounts: seq<SnapshotAccount>, banks: seq<SnapshotAccount>)

  /** A lock-guarded part of the cache. */
  datatype Cell<T> = Cell(value: T, poisoned: bool)

  datatype Cache = Cache(clock: Cell<Clock>, marginfiAccounts: Cell<seq<SnapshotAccount>>, banks: Cell<seq<SnapshotAccount>>)
  {
    predicate Healthy() {
      !clock.poisoned && !marginfiAccounts.poisoned && !banks.poisoned
    }
  }

  const POISONED: string := "cache lock poisoned"

  function Read<T>(cell: Cell<T>): (r: Result<T>)
    ensures r.Ok? <==> !cell.poisoned
    ensures r.Ok? ==> r.value == cell.value
  {
    if cell.poisoned then Err(POISONED) else Ok(cell.value)
  }

  /** Seconds since the epoch, or 0 when the wall clock reads before it. */
  function UnixSeconds(now: int): nat
  {
    if now >= 0 then now else 0
  }

  /** `CacheSnapshot::capture`: version 1, the capture time, and the current
      clock and both collections; the first failing cache read fails it. */
  function Capture(cache: Cache, now: int): (r: Result<CacheSnapshot>)
    ensures r.Ok? <==> cache.Healthy()
    ensures r.Ok? ==> r.value == CacheSnapshot(SNAPSHOT_VERSION, UnixSeconds(now), cache.clock.value,
                                               cache.marginfiAccounts.value, cache.banks.value)
    ensures r.Err? ==> r.error == POISONED
  {
    var clock :- Read(cache.clock);
    var marginfiAccounts :- Read(cache.marginfiAccounts);
    var banks :- Read(cache.banks);
    Ok(CacheSnapshot(SNAPSHOT_VERSION, UnixSeconds(now), clock, marginfiAccounts, banks))
  }

  // ---------------------------------------------------------------- files

  type Path = string

  /** A file: its bytes, and whether reading it succeeds. */
  datatype File = File(bytes: seq<Byte>, readable: bool)

  type Fs = map<Path, File>

  /** How the write of the temporary file ends: the file could not be
      created (a missing directory, no permission) and nothing changed; or it
      was created (truncating what was there) and written completely, or cut
      short after `kept` bytes (a crash, a full disk). */
  datatype WriteOutcome = NotCreated | Completed | Interrupted(kept: nat)

  /** The binary codec. */
  datatype Codec = Codec(encode: CacheSnapshot -> Result<seq<Byte>>, decode: seq<Byte> -> Result<CacheSnapshot>)

  /** Decoding gives back every snapshot that could be encoded. */
  ghost predicate RoundTrips(codec: Codec)
  {
    forall s :: codec.encode(s).Ok? ==> codec.decode(codec.encode(s).value) == Ok(s)
  }

  /** Index of the last occurrence of `c` in `s`, or -1. */
  function LastIndex(s: string, c: char): (k: int)
    ensures -1 <= k < |s|
    ensures k >= 0 ==> s[k] == c
    ensures forall i :: k < i < |s| ==> s[i] != c
  {
    if |s| == 0 then -1
    else if s[|s| - 1] == c then |s| - 1
    else LastIndex(s[..|s| - 1], c)
  }

  /** The path without what `Path` ignores at its end: trailing separators,
      and "." components that do not start the path. */
  function Trimmed(path: Path): (t: Path)
    ensures t <= path
    decreases |path|
  {
    if |path| > 0 && path[|path| - 1] == '/' then Trimmed(path[..|path| - 1])
    else if |path| >= 2 && path[|path| - 2] == '/' && path[|path| - 1] == '.' then Trimmed(path[..|path| - 1])
    else path
  }

  /** Whatever trimming removes ends in a separator or a dot. */
  lemma TrimmedEnd(path: Path)
    ensures Trimmed(path) != path ==> |path| > 0 && (path[|path| - 1] == '/' || path[|path| - 1] == '.')
  {
  }

  /** A path ending in anything but a separator or a dot is its own trimmed
      form. */
  lemma TrimmedPlain(path: Path)
    requires |path| > 0 && path[|path| - 1] != '/' && path[|path| - 1] != '.'
    ensures Trimmed(path) == path
  {
  }

  /** A trailing "/." is dropped along with the separator before it. */
  lemma TrimmedCurrentDir(path: Path)
    requires |path| >= 2 && path[|path| - 2] == '/' && path[|path| - 1] == '.'
    ensures Trimmed(path) == Trimmed(path[..|path| - 2])
  {
    assert path[..|path| - 1][..|path| - 2] == path[..|path| - 2];
  }

  /** The trimmed path up to and including its last separator. */
  function Directory(path: Path): Path
  {
    var t := Trimmed(path);
    t[..LastIndex(t, '/') + 1]
  }

  /** The final component of the trimmed path: the text after its last
      separator. */
  function FileName(path: Path): string
  {
    var t := Trimmed(path);
    t[LastIndex(t, '/') + 1..]
  }

  /** An empty final component, "." or ".." names no file. */
  predicate HasFileName(path: Path)
  {
    var name := FileName(path);
    name != "" && name != "." && name != ".."
  }

  /** The file name without its extension: up to its last dot, unless that
      dot starts the name. */
  function Stem(name: string): string
  {
    var dot := LastIndex(name, '.');
    if dot > 0 then name[..dot] else name
  }

  /** `Path::with_extension`: the path cut right after the stem of its file
      name, followed by the new extension; a path that names no file is left
      as it is. */
  function WithExtension(path: Path, ext: string): Path
  {
    if !HasFileName(path) then path
    else Directory(path) + Stem(FileName(path)) + "." + ext
  }

  /** The temporary file persist writes first. */
  function TmpPath(path: Path): Path
  {
    WithExtension(path, "tmp")
  }

  /** The temporary file lies in the directory of the target, and it is the
      target itself exactly when the target names no file, or ends in its
      file name and that name is already a stem followed by ".tmp". */
  lemma TmpPathShape(path: Path)
    ensures Directory(path) <= TmpPath(path)
    ensures TmpPath(path) == path <==>
      !HasFileName(path) || (Trimmed(path) == path && Stem(FileName(path)) + ".tmp" == FileName(path))
  {
    var t, d, n := Trimmed(path), Directory(path), FileName(path);
    SplitName(path);
    if HasFileName(path) {
      TmpPathSplit(path);
      TrimmedEnd(path);
      SameEnding(path, t, d, n, Stem(n) + ".tmp");
    } else {
      PrefixTrans(d, t, path);
    }
  }

  /** The trimmed path is its directory followed by its file name. */
  lemma SplitName(path: Path)
    ensures Trimmed(path) == Directory(path) + FileName(path)
  {
    var t := Trimmed(path);
    var k := LastIndex(t, '/');
    assert t == t[..k + 1] + t[k + 1..];
  }

  /** The temporary path of a target naming a file: its directory, the stem
      of its name, then ".tmp". */
  lemma TmpPathSplit(path: Path)
    requires HasFileName(path)
    ensures TmpPath(path) == Directory(path) + (Stem(FileName(path)) + ".tmp")
  {
    var d, st := Directory(path), Stem(FileName(path));
    assert d + st + ".tmp" == d + (st + ".tmp");
  }

  /** A new name `st` ending in 'p', put after the directory `d` of a path
      whose trimmed form is `d + n`, rebuilds the path exactly when nothing
      was trimmed and `st` is the old name. */
  lemma SameEnding(path: Path, t: Path, d: Path, n: string, st: string)
    requires t <= path && t == d + n
    requires t != path ==> |path| > 0 && (path[|path| - 1] == '/' || path[|path| - 1] == '.')
    requires |st| > 0 && st[|st| - 1] == 'p'
    ensures d + st == path <==> t == path && st == n
  {
    SameTail(d, st, n);
    if t != path {
      assert (d + st)[|d + st| - 1] == 'p';
    }
  }

  /** Replacing the extension keeps the directory: the temporary file of a
      target that names a file lies in exactly the target's directory. */
  lemma TmpPathSameDirectory(path: Path)
    requires HasFileName(path)
    ensures Directory(TmpPath(path)) == Directory(path)
  {
    var d, n := Directory(path), FileName(path);
    DirectoryEnds(path);
    NameHasNoSeparator(path);
    var stem := Stem(n);
    var st := stem + ".tmp";
    forall i | 0 <= i < |st|
      ensures st[i] != '/'
    {
      if i < |stem| {
        assert st[i] == n[i];
      }
    }
    TmpPathSplit(path);
    DirectoryOfAppend(d, st);
  }

  /** The directory part is empty or ends in a separator. */
  lemma DirectoryEnds(path: Path)
    ensures var d := Directory(path); d == [] || d[|d| - 1] == '/'
  {
  }

  /** The file name holds no separator. */
  lemma NameHasNoSeparator(path: Path)
    ensures forall i :: 0 <= i < |FileName(path)| ==> FileName(path)[i] != '/'
  {
    AfterLast(Trimmed(path), '/');
  }

  /** Nothing after the last occurrence of `c` is `c`. */
  lemma AfterLast(s: string, c: char)
    ensures var n := s[LastIndex(s, c) + 1..]; forall i :: 0 <= i < |n| ==> n[i] != c
  {
    var k := LastIndex(s, c);
    var n := s[k + 1..];
    forall i | 0 <= i < |n|
      ensures n[i] != c
    {
      assert n[i] == s[k + 1 + i];
    }
  }

  /** A name without separators, put after a directory, keeps that
      directory. */
  lemma DirectoryOfAppend(d: Path, name: string)
    requires d == [] || d[|d| - 1] == '/'
    requires |name| > 0 && name[|name| - 1] != '/' && name[|name| - 1] != '.'
    requires forall i :: 0 <= i < |name| ==> name[i] != '/'
    ensures Directory(d + name) == d
  {
    var p := d + name;
    TrimmedPlain(p);
    assert forall i :: |d| <= i < |p| ==> p[i] == name[i - |d|];
    LastIndexAt(p, '/', |d| - 1);
    assert p[..|d|] == d;
  }

  lemma SameTail(d: string, a: string, b: string)
    ensures d + a == d + b <==> a == b
  {
    if d + a == d + b {
      assert (d + a)[|d|..] == a;
      assert (d + b)[|d|..] == b;
    }
  }

  lemma PrefixTrans(a: string, b: string, c: string)
    requires a <= b && b <= c
    ensures a <= c
  {
    assert c[..|a|] == b[..|a|];
  }

  /** `k` is the last position of `c` in `s` (-1 when there is none). */
  lemma LastIndexAt(s: string, c: char, k: int)
    requires -1 <= k < |s| && (k >= 0 ==> s[k] == c)
    requires forall i :: k < i < |s| ==> s[i] != c
    ensures LastIndex(s, c) == k
  {
  }

  /** The stem of a name whose last dot is at `dot`. */
  lemma StemAt(name: string, dot: int)
    requires 0 < dot < |name| && name[dot] == '.'
    requires forall i :: dot < i < |name| ==> name[i] != '.'
    ensures Stem(name) == name[..dot]
  {
    LastIndexAt(name, '.', dot);
  }

  /** The usual case: the extension of the target is replaced. */
  lemma TmpPathReplacesExtension()
    ensures TmpPath("cache.bin") == "cache.tmp"
  {
    var bin := "cache.bin";
    TrimmedPlain(bin);
    LastIndexAt(bin, '/', -1);
    StemAt(bin, 5);
    assert bin[..5] == "cache";
  }

  /** A trailing "." component is ignored, as `Path` ignores it: the
      temporary file of "foo.txt/." is "foo.tmp". */
  lemma TmpPathSkipsCurrentDir()
    ensures TmpPath("foo.txt/.") == "foo.tmp"
  {
    var p, name := "foo.txt/.", "foo.txt";
    assert Trimmed(p) == name by {
      TrimmedCurrentDir(p);
      assert p[..7] == name;
      TrimmedPlain(name);
    }
    LastIndexAt(name, '/', -1);
    assert FileName(p) == name && Directory(p) == "";
    StemAt(name, 3);
    assert Stem(FileName(p)) == "foo" by {
      assert name[..3] == "foo";
    }
  }

  /** A target in a directory whose name already ends in ".tmp" is its own
      temporary file. */
  lemma TmpPathOfTmpTarget()
    ensures TmpPath("state/cache.tmp") == "state/cache.tmp"
  {
    var nested := "state/cache.tmp";
    TrimmedPlain(nested);
    LastIndexAt(nested, '/', 5);
    StemAt(nested[6..], 5);
    assert nested[..6] == "state/" && nested[6..] == "cache.tmp" && nested[6..][..5] == "cache";
  }

  /** A temporary path that is never the target: the source's choice when it
      differs from the target, the target with ".tmp" appended otherwise. */
  function SafeTmpPath(path: Path): (tmp: Path)
    ensures tmp != path
    ensures TmpPath(path) != path ==> tmp == TmpPath(path)
    ensures Directory(path) <= tmp
  {
    TmpPathShape(path);
    if TmpPath(path) != path then TmpPath(path)
    else
      assert Directory(path) <= Trimmed(path) <= path;
      path + ".tmp"
  }

  /** `fs::rename`: the source file replaces the target; renaming a file
      onto itself changes nothing. */
  function Rename(fs: Fs, from: Path, to: Path): (fs': Fs)
    requires from in fs
    ensures to in fs' && fs'[to] == fs[from]
    ensures from != to ==> from !in fs'
    ensures forall p :: p != from && p != to ==> (p in fs' <==> p in fs) && (p in fs ==> fs'[p] == fs[p])
  {
    if from == to then fs else (fs - {from})[to := fs[from]]
  }

  datatype Persisted = Persisted(result: Result<Unit>, fs: Fs)

  function WriteError(tmp: Path): string { "Failed to write cache snapshot to " + tmp }
  function RenameError(tmp: Path, path: Path): string
  {
    "Failed to finalize cache snapshot rename from " + tmp + " to " + path
  }

  /** For readers of `path`, `fs'` holds either what `fs` held there (or still
      no file) or the complete new contents; nothing but `path` and `tmp` differs. */
  predicate ReplacedAtomically(fs: Fs, fs': Fs, path: Path, tmp: Path, data: seq<Byte>)
  {
    && ((path in fs' && fs'[path] == File(data, true))
        || ((path in fs' <==> path in fs) && (path in fs ==> fs'[path] == fs[path])))
    && fs' - {path, tmp} == fs - {path, tmp}
  }

  /** Persist through a given temporary path: capture, encode, write the
      temporary file, rename it onto the target. */
  function PersistVia(cache: Cache, fs: Fs, path: Path, tmp: Path, now: int, codec: Codec,
                      write: WriteOutcome, renamed: bool): (r: Persisted)
    ensures !cache.Healthy() ==> r == Persisted(Err(POISONED), fs)
    ensures Capture(cache, now).Ok? && codec.encode(Capture(cache, now).value).Err? ==>
      r == Persisted(Err(codec.encode(Capture(cache, now).value).error), fs)
    ensures r.result.Ok? <==>
      Capture(cache, now).Ok? && codec.encode(Capture(cache, now).value).Ok? && write == Completed && renamed
    ensures write == NotCreated ==> r.result.Err? && r.fs == fs
    ensures r.result.Ok? ==>
      path in r.fs && r.fs[path] == File(codec.encode(Capture(cache, now).value).value, true)
      && (tmp != path ==> tmp !in r.fs)
    ensures Capture(cache, now).Ok? && codec.encode(Capture(cache, now).value).Ok? && tmp != path ==>
      ReplacedAtomically(fs, r.fs, path, tmp, codec.encode(Capture(cache, now).value).value)
  {
    match Capture(cache, now)
    case Err(e) => Persisted(Err(e), fs)
    case Ok(snapshot) =>
      match codec.encode(snapshot)
      case Err(e) => Persisted(Err(e), fs)
      case Ok(data) =>
        match write
        case NotCreated => Persisted(Err(WriteError(tmp)), fs)
        case Interrupted(kept) =>
          var partial := if kept < |data| then data[..kept] else data;
          Persisted(Err(WriteError(tmp)), fs[tmp := File(partial, true)])
        case Completed =>
          var written := fs[tmp := File(data, true)];
          if !renamed then Persisted(Err(RenameError(tmp, path)), written)
          else Persisted(Ok(Unit), Rename(written, tmp, path))
  }

  /** `persist_cache_snapshot`, as written: the temporary file is
      `path.with_extension("tmp")`. Readers of `path` see the old or the new
      snapshot, never a partial one, whenever that temporary path differs
      from `path`. */
  function Persist(cache: Cache, fs: Fs, path: Path, now: int, codec: Codec,
                   write: WriteOutcome, renamed: bool): (r: Persisted)
    ensures !cache.Healthy() ==> r == Persisted(Err(POISONED), fs)
    ensures r.result.Ok? ==>
      && Capture(cache, now).Ok? && codec.encode(Capture(cache, now).value).Ok?
      && path in r.fs && r.fs[path] == File(codec.encode(Capture(cache, now).value).value, true)
    ensures Capture(cache, now).Ok? && codec.encode(Capture(cache, now).value).Ok? && TmpPath(path) != path ==>
      ReplacedAtomically(fs, r.fs, path, TmpPath(path), codec.encode(Capture(cache, now).value).value)
  {
    PersistVia(cache, fs, path, TmpPath(path), now, codec, write, renamed)
  }

  /** Persist with a temporary path that can never be the target: readers of
      `path` see the old or the new snapshot whatever the outcome. */
  function PersistSafe(cache: Cache, fs: Fs, path: Path, now: int, codec: Codec,
                       write: WriteOutcome, renamed: bool): (r: Persisted)
    ensures !cache.Healthy() ==> r == Persisted(Err(POISONED), fs)
    ensures r.result.Ok? ==>
      && Capture(cache, now).Ok? && codec.encode(Capture(cache, now).value).Ok?
      && path in r.fs && r.fs[path] == File(codec.encode(Capture(cache, now).value).value, true)
    ensures Capture(cache, now).Ok? && codec.encode(Capture(cache, now).value).Ok? ==>
      ReplacedAtomically(fs, r.fs, path, SafeTmpPath(path), codec.encode(Capture(cache, now).value).value)
    ensures TmpPath(path) != path ==> r == Persist(cache, fs, path, now, codec, write, renamed)
  {
    PersistVia(cache, fs, path, SafeTmpPath(path), now, codec, write, renamed)
  }

  /** A failed temporary write leaves the target as it was. */
  lemma InterruptedWriteKeepsTarget(cache: Cache, fs: Fs, path: Path, now: int, codec: Codec, kept: nat, renamed: bool)
    requires TmpPath(path) != path
    ensures var r := Persist(cache, fs, path, now, codec, Interrupted(kept), renamed);
      r.result.Err? && (path in r.fs <==> path in fs) && (path in fs ==> r.fs[path] == fs[path])
  {
  }

  /** When the target is its own temporary file, an interrupted write leaves
      the first `kept` bytes of the new snapshot at the target: the snapshot
      that was there is gone and the new one is incomplete. */
  lemma TmpCollisionTruncates(cache: Cache, fs: Fs, path: Path, now: int, codec: Codec, kept: nat, renamed: bool)
    requires TmpPath(path) == path
    requires Capture(cache, now).Ok? && codec.encode(Capture(cache, now).value).Ok?
    requires kept < |codec.encode(Capture(cache, now).value).value|
    ensures var r := Persist(cache, fs, path, now, codec, Interrupted(kept), renamed);
      r.result.Err? && path in r.fs && r.fs[path] == File(codec.encode(Capture(cache, now).value).value[..kept], true)
  {
  }

  /** With the target "cache.tmp", which held a complete snapshot, an
      interrupted write leaves a truncated snapshot at the target. */
  lemma TmpCollisionTruncatesTarget()
    ensures var cache := Cache(Cell(Clock(0, 0, 0, 0, 0), false), Cell([], false), Cell([], false));
      var codec := Codec(s => Ok([1, 2]), b => Err("unused"));
      var fs := map["cache.tmp" := File([7, 7], true)];
      var r := Persist(cache, fs, "cache.tmp", 0, codec, Interrupted(1), true);
      && r.fs["cache.tmp"] == File([1], true)
      && r.fs["cache.tmp"] != fs["cache.tmp"]
      && r.fs["cache.tmp"] != File([1, 2], true)
  {
    var cache := Cache(Cell(Clock(0, 0, 0, 0, 0), false), Cell([], false), Cell([], false));
    var codec := Codec(s => Ok([1, 2]), b => Err("unused"));
    var fs := map["cache.tmp" := File([7, 7], true)];
    var data: seq<Byte> := [1, 2];
    TmpPathOfBareTmp();
    assert codec.encode(Capture(cache, 0).value) == Ok(data);
    TmpCollisionTruncates(cache, fs, "cache.tmp", 0, codec, 1, true);
    assert data[..1] == [1];
  }

  /** "cache.tmp" is its own temporary file. */
  lemma TmpPathOfBareTmp()
    ensures TmpPath("cache.tmp") == "cache.tmp"
  {
    var tmp := "cache.tmp";
    TrimmedPlain(tmp);
    LastIndexAt(tmp, '/', -1);
    assert FileName(tmp) == tmp && Directory(tmp) == "";
    StemAt(tmp, 5);
    assert Stem(tmp) == "cache" by {
      assert tmp[..5] == "cache";
    }
  }

  // -------------------------------------------------------------- restore

  datatype Restored = Restored(result: Result<bool>, cache: Cache)

  function ReadFailed(path: Path): string { "Failed to read cache snapshot from " + path }
  function DecodeFailed(path: Path): string { "Failed to deserialize cache snapshot " + path }

  /** The cache holding exactly the snapshot's clock and collections. */
  function Holding(snapshot: CacheSnapshot): Cache
  {
    Cache(Cell(snapshot.clock, false), Cell(snapshot.marginfiAccounts, false), Cell(snapshot.banks, false))
  }

  /** Replace the clock, then the margin accounts, then the banks, stopping
      at the first part whose lock fails. */
  function ReplaceAll(cache: Cache, snapshot: CacheSnapshot): (r: Restored)
    ensures r.result.Ok? <==> cache.Healthy()
    ensures r.result.Ok? ==> r.result.value && r.cache == Holding(snapshot)
  {
    if cache.clock.poisoned then Restored(Err(POISONED), cache)
    else
      var c1 := cache.(clock := Cell(snapshot.clock, false));
      if c1.marginfiAccounts.poisoned then Restored(Err(POISONED), c1)
      else
        var c2 := c1.(marginfiAccounts := Cell(snapshot.marginfiAccounts, false));
        if c2.banks.poisoned then Restored(Err(POISONED), c2)
        else Restored(Ok(true), c2.(banks := Cell(snapshot.banks, false)))
  }

  /** The snapshot stored at `path`, when it can be read and decoded. */
  function Stored(fs: Fs, path: Path, codec: Codec): Result<CacheSnapshot>
  {
    if path !in fs then Err("no file")
    else if !fs[path].readable then Err(ReadFailed(path))
    else match codec.decode(fs[path].bytes)
      case Err(_) => Err(DecodeFailed(path))
      case Ok(s) => Ok(s)
  }

  /** `restore_cache_snapshot`: no file means "not restored"; a read or
      decode failure is an error; another version means "not restored";
      otherwise the clock and both collections are replaced and the result is
      "restored". Only the last case touches the cache. */
  function Restore(cache: Cache, fs: Fs, path: Path, codec: Codec): (r: Restored)
    ensures path !in fs ==> r == Restored(Ok(false), cache)
    ensures path in fs && !fs[path].readable ==> r == Restored(Err(ReadFailed(path)), cache)
    ensures path in fs && fs[path].readable && codec.decode(fs[path].bytes).Err? ==>
      r == Restored(Err(DecodeFailed(path)), cache)
    ensures Stored(fs, path, codec).Ok? && Stored(fs, path, codec).value.version != SNAPSHOT_VERSION ==>
      r == Restored(Ok(false), cache)
    ensures r.result == Ok(true) <==>
      Stored(fs, path, codec).Ok? && Stored(fs, path, codec).value.version == SNAPSHOT_VERSION && cache.Healthy()
    ensures r.result == Ok(true) ==> r.cache == Holding(Stored(fs, path, codec).value)
    ensures r.result == Ok(false) ==> r.cache == cache
  {
    if path !in fs then Restored(Ok(false), cache)
    else if !fs[path].readable then Restored(Err(ReadFailed(path)), cache)
    else match codec.decode(fs[path].bytes)
      case Err(_) => Restored(Err(DecodeFailed(path)), cache)
      case Ok(snapshot) =>
        if snapshot.version != SNAPSHOT_VERSION then Restored(Ok(false), cache)
        else ReplaceAll(cache, snapshot)
  }

  /** A healthy cache whose snapshot can be encoded is persisted when the
      write and the rename succeed. */
  lemma PersistSucceeds(cache: Cache, fs: Fs, path: Path, now: int, codec: Codec)
    requires cache.Healthy()
    requires codec.encode(Capture(cache, now).value).Ok?
    ensures Persist(cache, fs, path, now, codec, Completed, true).result.Ok?
  {
  }

  /** Round trip: after a successful persist, restoring from the same path
      into any healthy cache (the one a restarted process starts with)
      with a round-tripping codec reports "restored" and gives back exactly
      the persisted clock and collections. */
  lemma PersistThenRestore(cache: Cache, other: Cache, fs: Fs, path: Path, now: int, codec: Codec)
    requires RoundTrips(codec)
    requires other.Healthy()
    requires Persist(cache, fs, path, now, codec, Completed, true).result.Ok?
    ensures var fs' := Persist(cache, fs, path, now, codec, Completed, true).fs;
      Restore(other, fs', path, codec) == Restored(Ok(true), cache)
  {
    var snapshot := Capture(cache, now).value;
    var fs' := Persist(cache, fs, path, now, codec, Completed, true).fs;
    assert codec.decode(codec.encode(snapshot).value) == Ok(snapshot);
    assert Stored(fs', path, codec) == Ok(snapshot);
  }

  /** Restoring is idempotent: a second restore from the same file leaves the
      cache as the first one left it. */
  lemma RestoreIdempotent(cache: Cache, fs: Fs, path: Path, codec: Codec)
    requires Restore(cache, fs, path, codec).result == Ok(true)
    ensures var once := Restore(cache, fs, path, codec).cache;
      Restore(once, fs, path, codec) == Restored(Ok(true), once)
  {
  }
}

=== FILE: text.dfy ===
/** Text handling used by the account fetcher: substring search (the only way
    the scan-limit rejection can be recognised) and the upper-case hex
    rendering of an authority prefix used in log lines. */
module Text {
  import opened Common

  /** `pat` occurs in `s` starting at position `i`. */
  predicate OccursAt(s: string, pat: string, i: int)
  {
    0 <= i && i + |pat| <= |s| && s[i..i + |pat|] == pat
  }

  /** Executable substring test, scanning left to right. */
  function Contains(s: string, pat: string): (b: bool)
    decreases |s|
  {
    if |s| < |pat| then false
    else if s[..|pat|] == pat then true
    else Contains(s[1..], pat)
  }

  /** The scan agrees with the positional definition of an occurrence. */
  lemma {:induction false} ContainsMeaning(s: string, pat: string)
    ensures Contains(s, pat) <==> exists i :: OccursAt(s, pat, i)
    decreases |s|
  {
    if |s| < |pat| {
      assert forall i :: !OccursAt(s, pat, i);
    } else if s[..|pat|] == pat {
      assert OccursAt(s, pat, 0);
    } else {
      ContainsMeaning(s[1..], pat);
      if Contains(s[1..], pat) {
        var i :| OccursAt(s[1..], pat, i);
        assert s[1..][i..i + |pat|] == s[i + 1..i + 1 + |pat|];
        assert OccursAt(s, pat, i + 1);
      } else {
        assert !OccursAt(s, pat, 0);
        forall i | 0 < i ensures !OccursAt(s, pat, i) {
          assert !OccursAt(s[1..], pat, i - 1);
          if i + |pat| <= |s| {
            assert s[1..][i - 1..i - 1 + |pat|] == s[i..i + |pat|];
          }
        }
      }
    }
  }

  /** Text inserted anywhere into a longer message is still found. */
  lemma ContainsEmbedded(before: string, pat: string, after: string)
    ensures Contains(before + pat + after, pat)
  {
    var s := before + pat + after;
    assert s[|before|..|before| + |pat|] == pat;
    assert OccursAt(s, pat, |before|);
    ContainsMeaning(s, pat);
  }

  /** An upper-case hex digit. */
  predicate IsHexDigit(c: char)
  {
    '0' <= c <= '9' || 'A' <= c <= 'F'
  }

  /** Value of an upper-case hex digit. */
  function HexValue(c: char): (n: int)
    requires IsHexDigit(c)
    ensures 0 <= n < 16
  {
    if '0' <= c <= '9' then c as int - '0' as int else c as int - 'A' as int + 10
  }

  /** Upper-case hex digit for a value below 16; its value is that value. */
  function HexDigit(n: int): (c: char)
    requires 0 <= n < 16
    ensures IsHexDigit(c) && HexValue(c) == n
  {
    if n < 10 then ('0' as int + n) as char else ('A' as int + n - 10) as char
  }

  /** Two upper-case hex digits per byte, most significant nibble first. */
  function HexBytes(bytes: seq<Byte>): (s: string)
    ensures |s| == 2 * |bytes|
  {
    if |bytes| == 0 then ""
    else [HexDigit(bytes[0] / 16), HexDigit(bytes[0] % 16)] + HexBytes(bytes[1..])
  }

  /** Byte i of the input is rendered at positions 2i and 2i+1, and only hex
      digits are produced. */
  lemma {:induction false} HexBytesAt(bytes: seq<Byte>, i: nat)
    requires i < |bytes|
    ensures HexBytes(bytes)[2 * i] == HexDigit(bytes[i] / 16)
    ensures HexBytes(bytes)[2 * i + 1] == HexDigit(bytes[i] % 16)
  {
    if i > 0 {
      HexBytesAt(bytes[1..], i - 1);
    }
  }

  /** Inverse of HexBytes: pairs of hex digits back to bytes. */
  function ParseHex(s: string): (r: Option<seq<Byte>>)
    decreases |s|
  {
    if |s| == 0 then Some([])
    else if |s| == 1 || !IsHexDigit(s[0]) || !IsHexDigit(s[1]) then None
    else match ParseHex(s[2..])
      case None => None
      case Some(rest) => Some([HexValue(s[0]) * 16 + HexValue(s[1])] + rest)
  }

  /** The rendering used for an authority prefix in log lines. */
  const FULL_RANGE: string := "<full>"

  /** `format_prefix`: "<full>" for the empty prefix, the hex digits otherwise. */
  function FormatPrefix(prefix: seq<Byte>): (s: string)
    ensures |prefix| == 0 ==> s == FULL_RANGE
    ensures |prefix| > 0 ==> |s| == 2 * |prefix| && ParseHex(s) == Some(prefix)
  {
    if |prefix| == 0 then FULL_RANGE
    else
      HexRoundTrip(prefix);
      HexBytes(prefix)
  }

  /** Parsing the hex rendering gives back the bytes. */
  lemma {:induction false} HexRoundTrip(bytes: seq<Byte>)
    ensures ParseHex(HexBytes(bytes)) == Some(bytes)
  {
    if |bytes| > 0 {
      var b := bytes[0];
      HexRoundTrip(bytes[1..]);
      ParsePair(b / 16, b % 16, HexBytes(bytes[1..]), bytes[1..]);
      assert b / 16 * 16 + b % 16 == b;
      assert [b] + bytes[1..] == bytes;
    }
  }

  lemma ParsePair(hi: int, lo: int, rest: string, r: seq<Byte>)
    requires 0 <= hi < 16 && 0 <= lo < 16
    requires ParseHex(rest) == Some(r)
    ensures ParseHex([HexDigit(hi), HexDigit(lo)] + rest) == Some([hi * 16 + lo] + r)
  {
    var s := [HexDigit(hi), HexDigit(lo)] + rest;
    assert s[2..] == rest;
  }

  /** Distinct prefixes are never logged the same way, and the empty prefix
      is never mistaken for a one-byte or longer prefix. */
  lemma FormatPrefixInjective(p: seq<Byte>, q: seq<Byte>)
    requires FormatPrefix(p) == FormatPrefix(q)
    ensures p == q
  {
    FormatPrefixFirst(p);
    FormatPrefixFirst(q);
  }

  lemma FormatPrefixFirst(p: seq<Byte>)
    ensures (FormatPrefix(p)[0] == '<') <==> |p| == 0
  {
    if |p| > 0 {
      HexBytesAt(p, 0);
    }
  }
}
